=== FILE: README.md ===
# ReNamer media organiser — a Dafny model

`ReNamerv1.py` scans the immediate subdirectories of the working directory
for loosely named media folders:

- TV episodes look like `Show.Name.2021.S01E02.WEB`.
- Movies look like `Movie.Title.1999.1080p`.

For each folder it does the following:

1. Looks the show or movie up. It reads a per-title JSON cache first and asks
   TheTVDB or OMDb only on a miss.
2. Builds a canonical name.
3. Writes a CSV-style report of the TV entries.
4. Moves each folder's largest media file into a Plex library under
   `M:\PlexShares`.
5. Deletes the source folder.

This project models that pipeline as pure functions and proves what the code
guarantees about it.

| module | file | models |
|---|---|---|
| `Wrappers` | `wrappers.dfy` | `Option` and `Result` (the latter stands for "returns or raises") |
| `Text` | `text.dfy` | `int()` / `str()` on ASCII digit strings, `{:02d}`, `str.replace('.', ' ')` |
| `Sanitizer` | `sanitizer.dfy` | `sanitize_name` |
| `Patterns` | `patterns.dfy` | `match_tv_show`, `match_movie`, with Python `re` semantics for the two patterns |
| `Resolver` | `resolver.dfy` | `get_tv_show_info`, `get_movie_info`: missing key, cache first, then the remote call, then the cache write |
| `Naming` | `naming.dfy` | `process_tv_show_match`, `process_movie_match` |
| `Library` | `library.dfy` | the two directory builders, `find_largest_file`, `os.path.splitext` |
| `Scanner` | `scanner.dfy` | `list_directories` with its per-directory `try`/`except`, `save_tv_show_directories_to_file` |
| `Plan` | `plan.dfy` | `move_and_rename_largest_file`, `remove_directory` and the `__main__` loop, as a list of file-system actions |

## Modelling choices

**Regex semantics.** The regex matchers follow Python's `re.match` exactly:

- `.` does not match a newline.
- `$` also matches just before a final newline.
- The lazy TV show group `(.+?)` takes the shortest split that lets the rest
  of the pattern match.
- The greedy movie title `(.+)` takes the longest split.

Each matcher is an executable scan over split points in backtracking order.
Each one is proved equal to a declarative "is a parse" predicate, and the
choice among parses is pinned down by a uniqueness lemma.

**Caches and remote services.**

- The two caches are maps from the cache file's name to a record. They are
  threaded through every call as state.
- A cache file is `tv_show_{sanitized name}.json` or
  `movie_{sanitized name}.json` under `M:\Plexshares\MediaCache`. Windows
  compares file names without regard to letter case, so the key is the
  sanitized name with ASCII letters folded to lower case (`Resolver.CacheKey`).
  This is also why `CACHE_DIR`'s `Plexshares` and `PLEX_BASE_DIR`'s
  `PlexShares` name the same folder.
- The remote services are function-valued fields of a `Resolver.Context`.
  They return one of three things:
  - an answer;
  - a "not found", which stands for the caught `tvdb_*notfound` exceptions or
    a response that is not `ok`;
  - a failure, which stands for an exception nothing in the function catches.
- JSON objects are maps from string to string. A missing key raises
  `KeyError`, whose message is the quoted key.

**Paths** are lists of segments. `os.path.join(p, s)` appends `s`, and
`basename` is the last segment. Names that `os.walk` lists and names that went
through `sanitize_name` hold no separator. The moved file's new name is not
sanitized, so `Library.JoinName` splits it at every `/` and `\`, as Windows
reads the joined string.

**File-system effects.**

- The main loop's effects become the actions `MakeDir`, `Move` and `Remove`.
- What `os.walk` / `os.path.getsize` would report for a directory is an
  input, `listing`.
- An exception raised in the main loop ends the loop. The plan records its
  message in `aborted`.

### Behaviour of the code worth knowing

Each of these follows from the code as written, and the model keeps it.

- `process_tv_show_match` always returns a 4-tuple, and a 4-tuple is always
  truthy.
  - So a TV-shaped directory is added to the worklist whenever nothing
    raised, even when the lookup found nothing.
  - Its display name is `str()` of that tuple. The model keeps that text as
    the abstract parameter `tupleText`.
- The suffix appended after that tuple text comes from `groups()[:3]`, which
  is show, year and season. So the suffix is `" S{year}E{season}"`, with
  `None` printed for a missing year. It is not a second `S{season}E{episode}`.
- The main loop re-runs `process_tv_show_match`. So the moved file is named
  `{show} - S{ss}E{ee} - {episode}{ext}`, without the scanner's suffix.
- A media file whose name is only dots and its extension, such as `.mkv`,
  has no extension by `os.path.splitext`. It is moved under the new name
  with no extension at all.
- The source directory is removed whenever resolution succeeded and the names
  are truthy. That happens even when there is no media file to move, and even
  when the move fails (the move's exception is caught and logged).
- A remote TV fetch replaces the show's whole cache record with a record that
  holds only the one episode fetched.
- The movie cache is keyed by title alone, with the year ignored.
- Names that differ only in letter case share one cache file. A lookup for
  `the office` after one for `The Office` is a cache hit.
- The new file name is not sanitized, though the directories are. A title
  such as `Face/Off` or a show such as `AC/DC` puts a separator into the
  joined path. The file is then aimed at a subdirectory that nothing creates,
  so the move fails and is logged, and the source directory is still
  removed.
- The characters `? * " < > |` are not allowed in Windows file names. When
  one of them is in a title or episode name, it survives in the unsanitized
  new file name. The move then fails the same way: it is logged, and the
  source directory is still removed. The model does not track which names
  the file system refuses, so this case is stated here only.

## Model

| member | source | states |
|---|---|---|
| Sanitizer.Sanitize | ReNamerv1.py:46-47 | the result contains none of `\ / : " * ? < > \|`, every other character keeps its number of occurrences, and the result is no longer than the input |
| Sanitizer.SanitizeConcat | ReNamerv1.py:46-47 | sanitizing a concatenation is concatenating the sanitized parts (the substitution works character by character) |
| Sanitizer.SanitizeFixedPoint | ReNamerv1.py:46-47 | a name is left unchanged exactly when it holds none of the nine characters |
| Sanitizer.SanitizeIdempotent | ReNamerv1.py:46-47 | sanitizing twice is sanitizing once |
| Text.Decimal | ReNamerv1.py:93 | `str()` of a non-negative int is a non-empty digit string, one character long exactly below ten, with no leading zero |
| Text.DecimalRoundTrip | ReNamerv1.py:184 | `int(str(n)) == n`, which is how the integer season and episode become the cache keys `str(season)` and `str(episode)` |
| Text.DecimalInjective | ReNamerv1.py:116-117 | different season (or episode) numbers give different cache keys |
| Text.Pad2 | ReNamerv1.py:54 | `{:02d}` yields at least two digits whose value is the number: `str(n)` with one leading zero below ten, and `str(n)` itself from ten on |
| Text.Pad2OfTwoDigits | ReNamerv1.py:54 | for a two-digit group, `{int(season):02d}` gives back the group's own text |
| Text.DotsToSpaces | ReNamerv1.py:183 | `replace('.', ' ')` keeps the length, turns every dot into a space and keeps every other character in place |
| Patterns.TvScan | ReNamerv1.py:174 | the lazy scan from split `k` returns the groups at the first matching split at or after `k`, and fails only if no split from `k` on matches |
| Patterns.GroupsAtIsParse | ReNamerv1.py:174 | the groups read at a matching split form a parse of the name whose show group is that split |
| Patterns.ParseIsGroupsAt | ReNamerv1.py:174 | every parse is the one read off at the split its show group makes |
| Patterns.MatchTvLine | ReNamerv1.py:174 | on newline-free text: the result is a parse with the shortest show group, and there is no result exactly when there is no parse |
| Patterns.TvParseUnique | ReNamerv1.py:174 | two parses with show groups of the same length are the same, so the shortest show group determines the match |
| Patterns.MatchTv | ReNamerv1.py:173-175 | a match exists exactly when the name, less one final newline, has no newline and parses; the match is that text's parse with the shortest show group |
| Patterns.MovieScan | ReNamerv1.py:178 | the greedy scan below `k` returns the groups at the largest `.YYYY.` position below `k` that has text after it, and fails only when there is none |
| Patterns.MatchMovieLine | ReNamerv1.py:178 | on newline-free text: the result is a parse with the longest title, and there is no result exactly when there is no parse |
| Patterns.MovieScanIsLongest | ReNamerv1.py:178 | no parse has a longer title than the scan's result |
| Patterns.MovieParseUnique | ReNamerv1.py:178 | two parses with equally long titles are the same |
| Patterns.FirstLine | ReNamerv1.py:177-179 | `re.match` without `$` only sees the text before the first newline |
| Patterns.MatchMovie | ReNamerv1.py:177-179 | a match is a parse of the first line with the longest title, and no match means the first line has no parse |
| Resolver.ResolveTv | ReNamerv1.py:84-137 | a missing key raises and touches nothing; a cached episode is returned from the cache; any outcome but success leaves the cache as it was; the only write replaces the show's record with a one-episode record; after a success the cache holds the episode returned |
| Resolver.CacheKeyIgnoresCase | ReNamerv1.py:88-89 | two names that differ only in letter case map to the same cache file |
| Resolver.FoldSanitize | ReNamerv1.py:88 | folding letter case and deleting the forbidden characters can be done in either order |
| Resolver.TvMissAsksRemote | ReNamerv1.py:103-137 | on a cache miss the lookup succeeds exactly when the search has a first hit with an `id`, the episode fetch answers, and `seriesName`, `firstAired` and `episodeName` are present, and the record is built from those three; it raises exactly when the search or the fetch raises or the first hit lacks `id`; otherwise it returns `None` |
| Resolver.TvCaseVariantHitsCache | ReNamerv1.py:88-98 | after a success, a name that differs only in letter case gets the same record from the cache |
| Resolver.TvCacheHitIgnoresRemote | ReNamerv1.py:89-98 | on a cache hit the outcome does not depend on the remote service |
| Resolver.TvRoundTrip | ReNamerv1.py:84-130 | resolving the same episode again after a success returns the same record and the same cache, whatever the remote would answer |
| Resolver.TvFetchForgetsOtherEpisodes | ReNamerv1.py:112-125 | after a remote fetch, every other season/episode cached earlier for the show is gone |
| Resolver.ResolveMovie | ReNamerv1.py:139-171 | a missing key raises; a title whose cache file exists is answered from the cache; the cache changes only after a positive answer carrying all four fields, and then holds exactly that record |
| Resolver.MovieCaseVariantHitsCache | ReNamerv1.py:143-152 | after a success, a title that differs only in letter case gets the same record from the cache |
| Resolver.MovieMissRaises | ReNamerv1.py:154-171 | on a cache miss, the lookup raises exactly when the request raises, an `ok` body does not decode, `Response` is missing, or a positive answer lacks one of the four fields; a response that is not `ok` or a `Response` other than `'True'` returns `None` |
| Resolver.MovieResolvedIffPositive | ReNamerv1.py:152-171 | on a cache miss, the lookup succeeds exactly when the response is `ok`, decodes, has `Response == 'True'` and carries Title, Year, Director and imdbRating |
| Naming.ProcessTvMatch | ReNamerv1.py:181-192 | the function raises exactly when the TV lookup raises, and the cache it hands on is the one that lookup left; a success returns the show name the cache now holds and `{show} - S{season}E{episode} - {episode name}`, with the season and episode texts of the match; a success has a result exactly when the cache now holds the episode; no result and exceptions leave the cache unchanged |
| Naming.ProcessMovieMatch | ReNamerv1.py:194-203 | the function raises exactly when the movie lookup raises, and the cache it hands on is the one that lookup left; a success is `{cached title} ({year})`, with the year from the directory name; a success has a result exactly when the title's cache file now exists; no result and exceptions leave the cache unchanged |
| Naming.MovieNameUsesDirectoryYear | ReNamerv1.py:194-201 | two directories with the same title and different years share one cache record, and each name carries its own directory's year |
| Library.Segments | ReNamerv1.py:261 | the segments Windows reads in a string contain no separator, and there is one segment, the string itself, exactly when the string has no separator |
| Library.SegmentsRoundTrip | ReNamerv1.py:261 | joining the segments with `\` gives back the string, with `/` written as `\` |
| Library.JoinName | ReNamerv1.py:261 | `os.path.join(dir, name)` lies strictly inside `dir`; it is `dir/name` when the name has no separator, and at least two levels down when it has one |
| Library.JoinNameRoundTrip | ReNamerv1.py:261 | what lies below `dir` reads back as the joined name |
| Library.SeasonDirectory | ReNamerv1.py:49-57 | the path is `M:\PlexShares/Series/Shows/{sanitized show}[ (year)]/Season {ss}`, where the show segment is sanitized and the season digits' value is the season |
| Library.SeasonSegmentKeepsText | ReNamerv1.py:54 | for a two-digit season group, the season segment is `Season ` followed by that group |
| Library.MovieDirectory | ReNamerv1.py:59-66 | the path is `M:\PlexShares/Movies/{sanitized name}[ (year)]`, and without a year the last segment is clean |
| Library.LargestFile | ReNamerv1.py:232-247 | there is no result exactly when no file has a media extension; otherwise the result is the first media file of maximal size |
| Library.LargestFromSelects | ReNamerv1.py:237-245 | the loop with its running maximum (starting at -1, compared strictly) ends with the first largest media file |
| Library.SelectedUnique | ReNamerv1.py:243-245 | at most one position meets the selection rule, so ties go to the earliest file |
| Library.Extension | ReNamerv1.py:259 | `os.path.splitext(name)[1]`: a non-empty result is the dot-free tail that starts at the last dot and has a non-dot character before it; the result is empty exactly when no dot follows a non-dot character |
| Library.MediaExtensionKept | ReNamerv1.py:235-259 | a media file whose name has a non-dot character before its media extension has that media extension, so the moved file keeps it |
| Scanner.ScanDirectory | ReNamerv1.py:209-229 | one directory gives an entry or an error line, never both; an entry is a child of the root whose kind's pattern matched, with TV tried first; a TV-shaped name is recorded whenever nothing raised, named by the tuple's text followed by ` S{year}E{season}`; a movie is recorded exactly when its lookup gave a name, under that name; a name matching neither pattern changes nothing; an error line is logged exactly when the lookup of the matching kind raised, it names the directory, and the caches handed on are the ones that lookup left |
| Scanner.ScanTv | ReNamerv1.py:212-219 | the TV branch records an entry exactly when `process_tv_show_match` did not raise, and never without a TVDB key; the entry is `('tv_show', f"{tuple} S{year}E{season}", root/dir)` with the year and season groups of the match; the show cache handed on is the one the lookup left |
| Scanner.ScanMovie | ReNamerv1.py:220-224 | the movie branch records `('movie', name, root/dir)` exactly when `process_movie_match` returned a name, and logs a line exactly when it raised; the movie cache handed on is the one the lookup left |
| Scanner.ListDirectories | ReNamerv1.py:205-230 | each directory adds at most one entry or one error line, and every entry is a scanned child of the root that re-matches its kind's pattern |
| Scanner.ListDirectoriesCons | ReNamerv1.py:208-230 | the loop scans the first directory and then the rest from the caches it left behind; the first directory's entry or error line comes first, and the rest are scanned whatever the first one did |
| Scanner.ListDirectoriesConcat | ReNamerv1.py:208-229 | scanning `a + b` is scanning `a`, then `b` with the caches `a` left behind: order is kept, and an error in one directory does not stop the rest |
| Scanner.NoTvdbKeyNoTvEntries | ReNamerv1.py:205-230 | without a TVDB key the worklist holds only movies |
| Scanner.ReportText | ReNamerv1.py:249-254 | the report starts with the `New Name,Old Name` header, and is just the header when the worklist has no TV entries |
| Scanner.ReportAppend | ReNamerv1.py:252-254 | each further worklist entry appends `{name},{basename(source)}` and a newline when it is a TV entry, and nothing when it is a movie |
| Scanner.MovieRowsEmpty | ReNamerv1.py:252-254 | movie entries contribute no rows |
| Scanner.ReportRowsConcat | ReNamerv1.py:252-254 | the rows of a concatenated worklist are the rows of each part in turn |
| Plan.MoveLargest | ReNamerv1.py:256-266 | there is no move exactly when there is no media file; otherwise one move of the selected file from the source directory to `{new name}{extension of the source}` joined onto the destination, which lies inside the destination |
| Plan.RelocateShape | ReNamerv1.py:292-297 | one loop iteration creates the destination, moves at most one file and removes the source, in that order |
| Plan.MoveDestination | ReNamerv1.py:258-262 | a move within a relocation goes to the new name plus the file's extension, joined onto the created directory; without a separator in that name, the file lands directly in that directory under that name |
| Plan.SeparatedNameMissesDirectory | ReNamerv1.py:261 | a new name holding a separator puts the file below the created directory, not in it |
| Plan.PlanTv | ReNamerv1.py:291-297 | the TV branch acts exactly when there is a tuple with a truthy show name and formatted name, and then relocates into the season directory of the resolved show and the match's season |
| Plan.PlanMovie | ReNamerv1.py:303-309 | the movie branch acts exactly when there is a truthy name, and then relocates into `Movies/{name}` |
| Plan.MovieRelocation | ReNamerv1.py:303-309 | for a truthy movie name, the created directory's last segment is the sanitized name, and a moved file goes to that same unsanitized name plus its extension, joined onto that directory |
| Plan.PlanEntry | ReNamerv1.py:284-309 | an exception leaves the caches unchanged; any actions form one relocation of the entry's source directory into the library |
| Plan.PlanEntryOutcome | ReNamerv1.py:284-309 | the loop ends on an entry exactly when the second lookup of the entry's kind raises; a name that no longer matches, or a lookup without a result, only skips the entry; after a success the caches are the ones that lookup left, and unchanged when the name did not match |
| Plan.PlanTvDestination | ReNamerv1.py:286-297 | a planned episode goes to `Season {ss}` of the show the cache holds, as `{show} - S{ss}E{ee} - {episode}{ext}` joined onto that directory |
| Plan.PlanMovieDestination | ReNamerv1.py:299-309 | a planned movie goes to `Movies/{title} ({year})`, with the cached title and the directory's year, and the file is that same name plus its extension joined onto the directory |
| Plan.RemovedWhenResolved | ReNamerv1.py:284-309 | the loop acts on an entry exactly when its second resolution succeeds with truthy names, and the last action is then the removal of the source directory |
| Plan.RemovedWithoutMove | ReNamerv1.py:296-297 | when resolution succeeds with truthy names but there is no media file, the plan is exactly: create the destination, remove the source |
| Plan.PlanAllCons | ReNamerv1.py:284-309 | the loop emits the first entry's actions and then those of the rest, from the caches the first left behind; an exception in the first entry ends the loop there with its message |
| Plan.PlanAll | ReNamerv1.py:284-309 | in the whole plan every move sits between the creation of a directory that holds its destination and the removal of its source, every removal is of a worklist directory, and every created directory is inside the library |
| Plan.PlanSafeConcat | ReNamerv1.py:284-309 | two safe plans one after the other are safe |
| Plan.Run | ReNamerv1.py:281-309 | the report is the one written for the scan's worklist, the error log is the scan's error lines, and the actions, abort and caches are those of the loop over that worklist; the report has its header; there are at most as many error lines as directories; only scanned children of the root are removed; every moved file comes from one of them and lands inside the library |
| Plan.RunRemovesOnlyScanned | ReNamerv1.py:205-309 | a safe plan over a sound worklist removes and moves only inside scanned directories |

## Left out

- The progress bars (`TqdmToLogger`, `tqdm`, `copy_with_progress`, `move_with_progress`) are left out. They are I/O with no effect on names or placement. A move is a single `Move` action.
- `check_and_install`, `print`, `logging` and the log messages are left out. They have no effect on the results.
- Reading environment variables and `os.getcwd` are left out. The keys, the root and the directory names are inputs.
- The file system itself is left out: `os.walk`, `getsize`, `makedirs`, `shutil.move`, `rmtree` and their `OSError`s. Listings are inputs, and effects are actions. A move that fails in Python is still the same `Move` action here.
- Some `ntpath.join` and Windows path quirks are left out.
  - A new file name that starts with a separator or a drive letter, which `ntpath.join` treats as rooted, is split like any other.
  - Consecutive separators, which Windows collapses, give empty segments here.
  - A `:` inside a file name, which NTFS reads as a stream name, is kept in the segment.
  - Paths are otherwise plain segment lists.
- Resolver.CacheKey: only ASCII letters are folded. Windows also folds other letters by its own upper-case table, which is not modelled.
- Unicode is left out.
  - `\d` is ASCII digits only.
  - IGNORECASE folds only `S/s` and `E/e`. Python also folds `ſ` to `s` and the Kelvin sign to `k`.
  - `int()` accepts other Unicode digits.
- Malformed cache files are left out: invalid JSON, a record missing fields, and I/O errors while writing the cache. The cache is a well-formed map.
- The remote services are left out beyond their results: the TVDB and OMDb wire protocols and the URL building. A remote is a function of its arguments, so two calls with the same arguments give the same answer.
- Python's `str()` of the 4-tuple is left out. It stays the abstract parameter `tupleText`.
- `find_largest_file` walks subdirectories. The model sees that walk as one flat listing of names and sizes, in walk order, and joins the chosen name to the source directory as the code does.
- Scanner.ScanDirectory: the error line is stated as `ErrorLine(dirName, msg)` for some message. The message text is whatever the abstract remote or `KeyError` produced.

=== FILE: library.dfy ===
/** Library placement: the destination directories under the Plex root, the
    largest-file selector and the file-extension split used when moving. */
module Library {
  import opened Wrappers
  import opened Text
  import opened Sanitizer

  /** A path as its list of segments; `os.path.join(p, s)` appends `s`. */
  type Path = seq<string>

  function Join(p: Path, segment: string): Path {
    p + [segment]
  }

  /** `os.path.basename`. */
  function Basename(p: Path): string {
    if |p| == 0 then "" else p[|p| - 1]
  }

  /** The characters Windows reads as path separators. */
  predicate IsSeparator(c: char) {
    c == '\\' || c == '/'
  }

  predicate HasSeparator(s: string) {
    exists j :: 0 <= j < |s| && IsSeparator(s[j])
  }

  /** The segments Windows reads in a string: the pieces between its separators.
      A string without a separator is a single segment. */
  function Segments(s: string): (r: Path)
    ensures |r| >= 1
    ensures forall i, j :: 0 <= i < |r| && 0 <= j < |r[i]| ==> !IsSeparator(r[i][j])
    ensures |r| == 1 <==> !HasSeparator(s)
    ensures !HasSeparator(s) ==> r == [s]
    decreases |s|
  {
    if |s| == 0 then [""]
    else
      var rest := Segments(s[1..]);
      if IsSeparator(s[0]) then
        assert HasSeparator(s) by { assert IsSeparator(s[0]); }
        [""] + rest
      else
        assert HasSeparator(s) <==> HasSeparator(s[1..]) by {
          if HasSeparator(s) {
            var j :| 0 <= j < |s| && IsSeparator(s[j]);
            assert s[1..][j - 1] == s[j];
          }
          if HasSeparator(s[1..]) {
            var j :| 0 <= j < |s[1..]| && IsSeparator(s[1..][j]);
            assert s[j + 1] == s[1..][j];
          }
        }
        assert s == [s[0]] + s[1..];
        [[s[0]] + rest[0]] + rest[1..]
  }

  /** The segments written back with `\` between them. */
  function Unsplit(p: Path): string
    requires |p| >= 1
    decreases |p|
  {
    if |p| == 1 then p[0] else p[0] + "\\" + Unsplit(p[1..])
  }

  /** `s` with every `/` written as `\`. */
  function Backslashed(s: string): (r: string)
    ensures |r| == |s|
    ensures forall j :: 0 <= j < |s| ==> r[j] == if s[j] == '/' then '\\' else s[j]
  {
    seq(|s|, j requires 0 <= j < |s| => if s[j] == '/' then '\\' else s[j])
  }

  /** Splitting at the separators loses nothing but the choice between `/` and `\`. */
  lemma {:induction false} SegmentsRoundTrip(s: string)
    ensures Unsplit(Segments(s)) == Backslashed(s)
    decreases |s|
  {
    if |s| > 0 {
      var rest := Segments(s[1..]);
      SegmentsRoundTrip(s[1..]);
      BackslashedCons(s);
      if IsSeparator(s[0]) {
        var r := [""] + rest;
        assert Segments(s) == r;
        assert r[1..] == rest;
        assert Unsplit(r) == "" + "\\" + Unsplit(rest);
        assert Backslashed([s[0]]) == "\\";
      } else {
        assert Segments(s) == [[s[0]] + rest[0]] + rest[1..];
        UnsplitCons(s[0], rest);
        assert Backslashed([s[0]]) == [s[0]];
      }
    }
  }

  lemma BackslashedCons(s: string)
    requires |s| > 0
    ensures Backslashed(s) == Backslashed([s[0]]) + Backslashed(s[1..])
  {
  }

  /** Gluing a character onto the first segment glues it onto the unsplit text. */
  lemma UnsplitCons(c: char, rest: Path)
    requires |rest| >= 1
    ensures Unsplit([[c] + rest[0]] + rest[1..]) == [c] + Unsplit(rest)
  {
    var r := [[c] + rest[0]] + rest[1..];
    assert |r| == |rest| && r[0] == [c] + rest[0];
    if |rest| > 1 {
      assert r[1..] == rest[1..];
      var tail := "\\" + Unsplit(rest[1..]);
      assert Unsplit(r) == r[0] + tail;
      assert Unsplit(rest) == rest[0] + tail;
      AppendAssoc([c], rest[0], tail);
    }
  }

  lemma AppendAssoc(a: string, b: string, c: string)
    ensures (a + b) + c == a + (b + c)
  {
  }

  /** `os.path.join(dir, name)` for a name that is not rooted, as Windows then
      resolves it: each separator inside `name` starts a further segment. */
  function JoinName(dir: Path, name: string): (p: Path)
    ensures |p| > |dir| && p[..|dir|] == dir
    ensures !HasSeparator(name) ==> p == Join(dir, name)
    ensures HasSeparator(name) ==> |p| >= |dir| + 2
  {
    dir + Segments(name)
  }

  /** The joined name is read back, below `dir`, as the name itself. */
  lemma JoinNameRoundTrip(dir: Path, name: string)
    ensures Unsplit(JoinName(dir, name)[|dir|..]) == Backslashed(name)
  {
    assert JoinName(dir, name)[|dir|..] == Segments(name);
    SegmentsRoundTrip(name);
  }

  /** `PLEX_BASE_DIR`, `M:\PlexShares`: the drive and one directory. */
  const PlexBase: Path := ["M:", "PlexShares"]

  /** `f" ({year})"` when `year` is truthy, nothing otherwise. */
  function YearSuffix(year: Option<string>): string {
    if year.Some? && year.value != "" then " (" + year.value + ")" else ""
  }

  /** `create_show_and_season_directories(show_name, season, year)`, without the
      `os.makedirs` call: `Series/Shows/{sanitized show}[ (year)]/Season {int(season):02d}`. */
  function SeasonDirectory(showName: string, season: nat, year: Option<string>): (d: Path)
    ensures |d| == |PlexBase| + 4 && d[..|PlexBase|] == PlexBase
    ensures d[|PlexBase|] == "Series" && d[|PlexBase| + 1] == "Shows"
    ensures d[|PlexBase| + 2] == Sanitize(showName) + YearSuffix(year)
    ensures year.None? ==> IsClean(d[|PlexBase| + 2])
    ensures var seg := d[|PlexBase| + 3];
      |seg| >= 9 && seg[..7] == "Season " && AllDigits(seg[7..]) && DigitsValue(seg[7..]) == season
  {
    var seg := "Season " + Pad2(season);
    assert seg[7..] == Pad2(season);
    PlexBase + ["Series", "Shows", Sanitize(showName) + YearSuffix(year), seg]
  }

  /** The season directory's last segment repeats the two-digit season text it was parsed from. */
  lemma SeasonSegmentKeepsText(showName: string, seasonText: string, year: Option<string>)
    requires |seasonText| == 2 && AllDigits(seasonText)
    ensures SeasonDirectory(showName, DigitsValue(seasonText), year)[|PlexBase| + 3] == "Season " + seasonText
  {
    Pad2OfTwoDigits(seasonText);
  }

  /** `create_movie_directory(formatted_name, year)`, without the `os.makedirs` call:
      `Movies/{sanitized name}[ (year)]`. */
  function MovieDirectory(formattedName: string, year: Option<string>): (d: Path)
    ensures |d| == |PlexBase| + 2 && d[..|PlexBase|] == PlexBase
    ensures d[|PlexBase|] == "Movies"
    ensures d[|PlexBase| + 1] == Sanitize(formattedName) + YearSuffix(year)
    ensures year.None? ==> IsClean(d[|PlexBase| + 1])
  {
    PlexBase + ["Movies", Sanitize(formattedName) + YearSuffix(year)]
  }

  // ---------------------------------------------------------------------------
  // Largest file

  /** A file met by `os.walk`: its base name and `os.path.getsize`. */
  datatype FileEntry = FileEntry(name: string, size: nat)

  const MediaExtensions: seq<string> := [".mkv", ".mp4", ".avi", ".mov", ".flv", ".wmv"]

  /** `file.endswith(file_extensions)`, case-sensitive. */
  predicate IsMediaFile(name: string) {
    exists i :: 0 <= i < |MediaExtensions| && EndsWith(name, MediaExtensions[i])
  }

  /** `files[k]` is the file `find_largest_file` reports after looking at the first
      `n` files: a media file at least as large as every media file among them,
      and strictly larger than every earlier one. */
  ghost predicate SelectedAmong(files: seq<FileEntry>, n: int, k: int) {
    && 0 <= k < n <= |files| && IsMediaFile(files[k].name)
    && (forall j :: 0 <= j < n && IsMediaFile(files[j].name) ==> files[j].size <= files[k].size)
    && (forall j :: 0 <= j < k && IsMediaFile(files[j].name) ==> files[j].size < files[k].size)
  }

  /** `files[i]` is the file `find_largest_file` reports for the whole listing. */
  ghost predicate IsSelected(files: seq<FileEntry>, i: int) {
    SelectedAmong(files, |files|, i)
  }

  /** The loop of `find_largest_file` from position `i`, with the running maximum
      `maxSize` and the file that set it. */
  function LargestFrom(files: seq<FileEntry>, i: nat, maxSize: int, largest: Option<string>): Option<string>
    requires i <= |files|
    decreases |files| - i
  {
    if i == |files| then largest
    else if IsMediaFile(files[i].name) && files[i].size > maxSize then
      LargestFrom(files, i + 1, files[i].size, Some(files[i].name))
    else LargestFrom(files, i + 1, maxSize, largest)
  }

  /** `find_largest_file`: the running maximum starts at -1, so a zero-byte media
      file qualifies, and the comparison is strict, so the first of equally large
      files is kept. There is no result exactly when no file is a media file. */
  function LargestFile(files: seq<FileEntry>): (r: Option<string>)
    ensures r.None? <==> forall j :: 0 <= j < |files| ==> !IsMediaFile(files[j].name)
    ensures r.Some? ==> exists i :: IsSelected(files, i) && files[i].name == r.value
  {
    LargestFromSelects(files, 0, -1, None, 0);
    LargestFrom(files, 0, -1, None)
  }

  /** The loop invariant after `i` files: either no media file so far, or
      `files[k]` is the file selected among them and `largest`, `maxSize` are its
      name and size. */
  ghost predicate LoopState(files: seq<FileEntry>, i: int, maxSize: int, largest: Option<string>, k: int) {
    if largest.None? then
      maxSize == -1 && i <= |files| && forall j :: 0 <= j < i ==> !IsMediaFile(files[j].name)
    else
      SelectedAmong(files, i, k) && files[k].name == largest.value && files[k].size == maxSize
  }

  /** `r` is what `find_largest_file` should report for `files`. */
  ghost predicate ReportsLargest(files: seq<FileEntry>, r: Option<string>) {
    && (r.None? <==> forall j :: 0 <= j < |files| ==> !IsMediaFile(files[j].name))
    && (r.Some? ==> exists k :: IsSelected(files, k) && files[k].name == r.value)
  }

  lemma {:induction false} LargestFromSelects(files: seq<FileEntry>, i: nat, maxSize: int, largest: Option<string>, k: int)
    requires i <= |files| && LoopState(files, i, maxSize, largest, k)
    ensures ReportsLargest(files, LargestFrom(files, i, maxSize, largest))
    decreases |files| - i
  {
    var r := LargestFrom(files, i, maxSize, largest);
    if i == |files| {
      assert r == largest;
      if largest.Some? {
        assert IsSelected(files, k);
      }
    } else {
      var f := files[i];
      if IsMediaFile(f.name) && f.size > maxSize {
        StepTakes(files, i, maxSize, largest, k);
        LargestFromSelects(files, i + 1, f.size, Some(f.name), i);
        assert r == LargestFrom(files, i + 1, f.size, Some(f.name));
      } else {
        StepKeeps(files, i, maxSize, largest, k);
        LargestFromSelects(files, i + 1, maxSize, largest, k);
        assert r == LargestFrom(files, i + 1, maxSize, largest);
      }
    }
  }

  lemma StepTakes(files: seq<FileEntry>, i: nat, maxSize: int, largest: Option<string>, k: int)
    requires i < |files| && LoopState(files, i, maxSize, largest, k)
    requires IsMediaFile(files[i].name) && files[i].size > maxSize
    ensures LoopState(files, i + 1, files[i].size, Some(files[i].name), i)
  {
  }

  lemma StepKeeps(files: seq<FileEntry>, i: nat, maxSize: int, largest: Option<string>, k: int)
    requires i < |files| && LoopState(files, i, maxSize, largest, k)
    requires !(IsMediaFile(files[i].name) && files[i].size > maxSize)
    ensures LoopState(files, i + 1, maxSize, largest, k)
  {
  }

  /** At most one position is the selected file. */
  lemma SelectedUnique(files: seq<FileEntry>, i: int, j: int)
    requires IsSelected(files, i) && IsSelected(files, j)
    ensures i == j
  {
  }

  // ---------------------------------------------------------------------------
  // Extension split

  /** Index of the last `.` in `s`, or -1. */
  function LastDot(s: string): (k: int)
    ensures -1 <= k < |s|
    ensures k >= 0 ==> s[k] == '.'
    ensures forall j :: k < j < |s| ==> s[j] != '.'
    decreases |s|
  {
    if |s| == 0 then -1
    else if s[|s| - 1] == '.' then |s| - 1
    else LastDot(s[..|s| - 1])
  }

  /** `os.path.splitext(name)[1]` for a base name: from the last dot on, unless
      everything before that dot is dots too (a leading-dot name has no extension). */
  function Extension(name: string): (ext: string)
    // a non-empty extension is a dot-free tail after a dot, with some non-dot character before it
    ensures ext != "" ==>
      && ext[0] == '.' && EndsWith(name, ext)
      && (forall t :: 1 <= t < |ext| ==> ext[t] != '.')
      && (exists j :: 0 <= j < |name| - |ext| && name[j] != '.')
    // there is none exactly when no dot comes after a non-dot character
    ensures ext == "" ==> forall j, k :: 0 <= j < k < |name| && name[j] != '.' ==> name[k] != '.'
  {
    var k := LastDot(name);
    if k >= 0 && exists j :: 0 <= j < k && name[j] != '.' then name[k..] else ""
  }

  /** A media file with a name before its extension keeps that extension when moved. */
  lemma MediaExtensionKept(name: string, e: int)
    requires 0 <= e < |MediaExtensions| && EndsWith(name, MediaExtensions[e])
    requires exists j :: 0 <= j < |name| - 4 && name[j] != '.'
    ensures Extension(name) == MediaExtensions[e]
  {
    var x := MediaExtensions[e];
    var k := |name| - 4;
    assert |x| == 4 && x[0] == '.' && forall t :: 1 <= t < 4 ==> x[t] != '.';
    assert forall t :: k <= t < |name| ==> name[t] == x[t - k];
    assert LastDot(name) == k;
  }
}

=== FILE: naming.dfy ===
/** The canonical name builder: `process_tv_show_match` and `process_movie_match`
    turn a pattern match into a lookup and the lookup into a display name. */
module Naming {
  import opened Wrappers
  import opened Text
  import opened Sanitizer
  import opened Patterns
  import opened Resolver

  /** `f'{show_name} - S{season}E{episode} - {episode_name}'`. */
  function TvCanonicalName(showName: string, season: string, episode: string, episodeName: string): string {
    showName + " - S" + season + "E" + episode + " - " + episodeName
  }

  /** `f'{movie_name} ({year})'`. */
  function MovieCanonicalName(title: string, year: string): string {
    title + " (" + year + ")"
  }

  /** The non-empty 4-tuple `(show_name, formatted_name, season, episode)`;
      `None` stands for `(None, None, None, None)`. */
  datatype TvResolved = TvResolved(showName: string, formatted: string, season: string, episode: string)

  /** The show name sent to the resolver: the show group with dots turned into spaces. */
  function TvQueryName(m: TvMatch): string {
    DotsToSpaces(m.show)
  }

  /** `process_tv_show_match`: look the episode up by the integer values of the
      two-digit groups, and build the name from the groups' text. `Failure` is an
      exception escaping the resolver. */
  function ProcessTvMatch(ctx: Context, m: TvMatch, cache: ShowCache): (r: (Result<Option<TvResolved>, string>, ShowCache))
    requires AllDigits(m.season) && AllDigits(m.episode)
    ensures !KeyPresent(ctx.tvdbKey) ==> r == (Failure(MissingTvdbKey), cache)
    ensures r.0.Failure? ==> r.1 == cache
    // a success names the episode the cache now holds for these season/episode numbers,
    // with the season and episode written as in the directory name
    ensures r.0.Success? && r.0.value.Some? ==>
      var t := r.0.value.value;
      var cached := CachedEpisode(r.1, TvQueryName(m), DigitsValue(m.season), DigitsValue(m.episode));
      && cached.Some?
      && t == TvResolved(cached.value.name, TvCanonicalName(cached.value.name, m.season, m.episode, cached.value.episodeName), m.season, m.episode)
    // and a success without a tuple means the episode is still not cached
    ensures r.0.Success? ==>
      (r.0.value.Some? <==> CachedEpisode(r.1, TvQueryName(m), DigitsValue(m.season), DigitsValue(m.episode)).Some?)
    ensures r.0 == Success(None) ==> r.1 == cache
    // it raises exactly when `get_tv_show_info` raises, and otherwise returns a tuple,
    // `(None, None, None, None)` included; the cache is whatever the lookup left
    ensures var (o, c) := ResolveTv(ctx, TvQueryName(m), DigitsValue(m.season), DigitsValue(m.episode), cache);
      (r.0.Failure? <==> o.Raised?) && r.1 == c
  {
    var (outcome, cache1) := ResolveTv(ctx, TvQueryName(m), DigitsValue(m.season), DigitsValue(m.episode), cache);
    match outcome
    case Raised(msg) => (Failure(msg), cache1)
    case Unresolved => (Success(None), cache1)
    case Resolved(info) =>
      (Success(Some(TvResolved(info.name, TvCanonicalName(info.name, m.season, m.episode, info.episodeName), m.season, m.episode))), cache1)
  }

  /** The title sent to the resolver: the title group with dots turned into spaces. */
  function MovieQueryName(m: MovieMatch): string {
    DotsToSpaces(m.title)
  }

  /** `process_movie_match`: look the movie up by title and name it with the year
      from the directory name. */
  function ProcessMovieMatch(ctx: Context, m: MovieMatch, cache: MovieCache): (r: (Result<Option<string>, string>, MovieCache))
    ensures !KeyPresent(ctx.omdbKey) ==> r == (Failure(MissingOmdbKey), cache)
    ensures r.0.Failure? ==> r.1 == cache
    ensures r.0.Success? && r.0.value.Some? ==>
      && CacheKey(MovieQueryName(m)) in r.1
      && r.0.value.value == MovieCanonicalName(r.1[CacheKey(MovieQueryName(m))].title, m.year)
    ensures r.0.Success? ==> (r.0.value.Some? <==> CacheKey(MovieQueryName(m)) in r.1)
    ensures r.0 == Success(None) ==> r.1 == cache
    // it raises exactly when `get_movie_info` raises, and otherwise returns a name or `None`
    ensures var (o, c) := ResolveMovie(ctx, MovieQueryName(m), cache);
      (r.0.Failure? <==> o.Raised?) && r.1 == c
  {
    var (outcome, cache1) := ResolveMovie(ctx, MovieQueryName(m), cache);
    match outcome
    case Raised(msg) => (Failure(msg), cache1)
    case Unresolved => (Success(None), cache1)
    case Resolved(info) => (Success(Some(MovieCanonicalName(info.title, m.year))), cache1)
  }

  /** The year in a movie's name is the one from the directory name: two directories
      with the same title and different years both get the record cached for the title,
      each under its own year, whatever year that record holds. */
  lemma MovieNameUsesDirectoryYear(ctx: Context, m1: MovieMatch, m2: MovieMatch, cache: MovieCache)
    requires KeyPresent(ctx.omdbKey)
    requires m1.title == m2.title
    requires ProcessMovieMatch(ctx, m1, cache).0.Success? && ProcessMovieMatch(ctx, m1, cache).0.value.Some?
    ensures var (n1, cache1) := ProcessMovieMatch(ctx, m1, cache);
      var (n2, cache2) := ProcessMovieMatch(ctx, m2, cache1);
      && cache2 == cache1
      && n2 == Success(Some(MovieCanonicalName(cache1[CacheKey(MovieQueryName(m1))].title, m2.year)))
  {
  }
}

=== FILE: patterns.dfy ===
/** The two directory-name patterns, as Python's `re` applies them:

      TV:    ^(.+?)(?:\.(\d{4}))?\.S(\d{2})E(\d{2})(?:\.(.*))?$   (re.IGNORECASE)
      movie: ^(.+)\.(\d{4})\.(.+)                                 (re.IGNORECASE)

    `.` matches any character but a newline, `\d` is an ASCII digit, `$` matches
    at the end or just before a final newline. Each matcher is an executable scan
    over the candidate split points in the order the regex engine backtracks
    through them, and each carries a declarative specification of the split it
    chooses: the shortest show prefix for TV, the longest title prefix for movies. */
module Patterns {
  import opened Wrappers
  import opened Text

  /** IGNORECASE on the literal letters of the TV pattern (ASCII input). */
  predicate IsS(c: char) {
    c == 'S' || c == 's'
  }

  predicate IsE(c: char) {
    c == 'E' || c == 'e'
  }

  // ---------------------------------------------------------------------------
  // TV pattern

  /** The five groups of the TV match: show, optional year, season, episode and
      the optional trailing text. */
  datatype TvMatch = TvMatch(show: string, year: Option<string>, season: string, episode: string, extra: Option<string>)

  function YearText(year: Option<string>): string {
    if year.Some? then "." + year.value else ""
  }

  function ExtraText(extra: Option<string>): string {
    if extra.Some? then "." + extra.value else ""
  }

  /** The `.SxxEyy` part of a name, given how the `S` and `E` were cased. */
  function EpisodeTag(sc: char, season: string, ec: char, episode: string): string {
    ['.', sc] + season + [ec] + episode
  }

  /** The text a match stands for, given how the `S` and `E` were cased. */
  function TvRender(m: TvMatch, sc: char, ec: char): string {
    m.show + YearText(m.year) + EpisodeTag(sc, m.season, ec, m.episode) + ExtraText(m.extra)
  }

  ghost predicate TvGroupsWellFormed(m: TvMatch) {
    && |m.show| >= 1
    && |m.season| == 2 && AllDigits(m.season)
    && |m.episode| == 2 && AllDigits(m.episode)
    && (m.year.Some? ==> |m.year.value| == 4 && AllDigits(m.year.value))
  }

  /** `m` is one way of reading the newline-free text `s` against the TV pattern. */
  ghost predicate IsTvParse(s: string, m: TvMatch) {
    && TvGroupsWellFormed(m)
    && exists sc: char, ec: char :: IsS(sc) && IsE(ec) && s == TvRender(m, sc, ec)
  }

  /** Cutting a text at three points and gluing the pieces back gives the text. */
  lemma Glue4(s: string, i: int, j: int, k: int)
    requires 0 <= i <= j <= k <= |s|
    ensures s == s[..i] + s[i..j] + s[j..k] + s[k..]
  {
    assert s[..j] == s[..i] + s[i..j];
    assert s[..k] == s[..j] + s[j..k];
    assert s == s[..k] + s[k..];
  }

  /** The pieces of a four-part concatenation are found back at their offsets. */
  lemma Split4(a: string, b: string, c: string, d: string)
    ensures var s := a + b + c + d;
      && s[..|a|] == a
      && s[|a|..|a| + |b|] == b
      && s[|a| + |b|..|a| + |b| + |c|] == c
      && s[|a| + |b| + |c|..] == d
  {
  }

  /** `.SxxEyy` starts at position `p`. */
  predicate EpisodeTagAt(s: string, p: int) {
    && 0 <= p && p + 7 <= |s|
    && s[p] == '.' && IsS(s[p + 1]) && IsDigit(s[p + 2]) && IsDigit(s[p + 3])
    && IsE(s[p + 4]) && IsDigit(s[p + 5]) && IsDigit(s[p + 6])
  }

  /** `.YYYY` starts at position `p`. */
  predicate YearAt(s: string, p: int) {
    && 0 <= p && p + 5 <= |s|
    && s[p] == '.' && IsDigit(s[p + 1]) && IsDigit(s[p + 2]) && IsDigit(s[p + 3]) && IsDigit(s[p + 4])
  }

  /** `(?:\.(.*))?$` can match from position `q`. */
  predicate TailAt(s: string, q: int) {
    q == |s| || (0 <= q < |s| && s[q] == '.')
  }

  function TailGroup(s: string, q: int): Option<string>
    requires TailAt(s, q)
  {
    if q == |s| then None else Some(s[q + 1..])
  }

  predicate YearBranch(s: string, k: int) {
    YearAt(s, k) && EpisodeTagAt(s, k + 5) && TailAt(s, k + 12)
  }

  predicate PlainBranch(s: string, k: int) {
    EpisodeTagAt(s, k) && TailAt(s, k + 7)
  }

  /** The rest of the pattern matches once the lazy show group has taken `k` characters. */
  predicate TvMatchesAt(s: string, k: int) {
    1 <= k && (YearBranch(s, k) || PlainBranch(s, k))
  }

  /** The groups at split `k`; the optional year is tried first, as the greedy `?` does. */
  function TvGroupsAt(s: string, k: int): TvMatch
    requires TvMatchesAt(s, k)
  {
    if YearBranch(s, k) then
      TvMatch(s[..k], Some(s[k + 1..k + 5]), s[k + 7..k + 9], s[k + 10..k + 12], TailGroup(s, k + 12))
    else
      TvMatch(s[..k], None, s[k + 2..k + 4], s[k + 5..k + 7], TailGroup(s, k + 7))
  }

  /** The groups at a matching split are a parse whose show group is that split. */
  lemma GroupsAtIsParse(s: string, k: int)
    requires TvMatchesAt(s, k)
    ensures IsTvParse(s, TvGroupsAt(s, k)) && |TvGroupsAt(s, k).show| == k
  {
    var m := TvGroupsAt(s, k);
    if YearBranch(s, k) {
      var y := s[k + 1..k + 5];
      assert m == TvMatch(s[..k], Some(y), s[k + 7..k + 9], s[k + 10..k + 12], TailGroup(s, k + 12));
      assert YearText(Some(y)) == s[k..k + 5] by {
        assert s[k..k + 5] == [s[k]] + s[k + 1..k + 5];
      }
      assert AllDigits(y) by {
        assert forall i :: 0 <= i < 4 ==> y[i] == s[k + 1 + i];
      }
      TailText(s, k + 12);
      PiecesAreParse(s, k, k + 5, m);
    } else {
      assert m == TvMatch(s[..k], None, s[k + 2..k + 4], s[k + 5..k + 7], TailGroup(s, k + 7));
      TailText(s, k + 7);
      PiecesAreParse(s, k, k, m);
    }
  }

  lemma TailText(s: string, q: int)
    requires TailAt(s, q)
    ensures ExtraText(TailGroup(s, q)) == s[q..]
  {
    if q < |s| {
      assert s[q..] == [s[q]] + s[q + 1..];
    }
  }

  /** Text cut as show, year, episode tag and tail, with the groups read off the
      pieces, is a parse. */
  lemma PiecesAreParse(s: string, k: int, p: int, m: TvMatch)
    requires 1 <= k <= p && EpisodeTagAt(s, p)
    requires m.show == s[..k] && YearText(m.year) == s[k..p] && ExtraText(m.extra) == s[p + 7..]
    requires m.season == s[p + 2..p + 4] && m.episode == s[p + 5..p + 7]
    requires m.year.Some? ==> |m.year.value| == 4 && AllDigits(m.year.value)
    ensures IsTvParse(s, m)
  {
    var q := p + 7;
    var sc, ec := s[p + 1], s[p + 4];
    assert s[p..q] == EpisodeTag(sc, m.season, ec, m.episode) by {
      assert s[p..q] == [s[p], s[p + 1]] + s[p + 2..p + 4] + [s[p + 4]] + s[p + 5..p + 7];
    }
    assert AllDigits(m.season) by {
      assert m.season[0] == s[p + 2] && m.season[1] == s[p + 3];
    }
    assert AllDigits(m.episode) by {
      assert m.episode[0] == s[p + 5] && m.episode[1] == s[p + 6];
    }
    Glue4(s, k, p, q);
    assert s == TvRender(m, sc, ec);
  }

  /** Every parse is the one found at the split its show group makes. */
  lemma ParseIsGroupsAt(s: string, m: TvMatch)
    requires IsTvParse(s, m)
    ensures TvMatchesAt(s, |m.show|) && TvGroupsAt(s, |m.show|) == m
  {
    var sc: char, ec: char :| IsS(sc) && IsE(ec) && s == TvRender(m, sc, ec);
    var k := |m.show|;
    var y := YearText(m.year);
    var t := EpisodeTag(sc, m.season, ec, m.episode);
    var x := ExtraText(m.extra);
    var p := k + |y|;
    var q := p + 7;
    Split4(m.show, y, t, x);
    assert s[..k] == m.show && s[k..p] == y && s[p..q] == t && s[q..] == x;
    ParseSlices(s, m, k, p, q, sc, ec);
  }

  lemma ParseSlices(s: string, m: TvMatch, k: int, p: int, q: int, sc: char, ec: char)
    requires TvGroupsWellFormed(m) && IsS(sc) && IsE(ec)
    requires k == |m.show| && 0 <= k <= p && q == p + 7 <= |s|
    requires s[..k] == m.show && s[k..p] == YearText(m.year)
    requires s[p..q] == EpisodeTag(sc, m.season, ec, m.episode) && s[q..] == ExtraText(m.extra)
    ensures TvMatchesAt(s, k) && TvGroupsAt(s, k) == m
  {
    TagSlice(s, p, sc, m.season, ec, m.episode);
    TailSlice(s, q, m.extra);
    if m.year.Some? {
      YearSlice(s, k, m.year.value);
      assert YearBranch(s, k);
    } else {
      assert PlainBranch(s, k);
      assert !YearBranch(s, k) by {
        assert !IsDigit(s[k + 1]);
      }
    }
  }

  lemma TagSlice(s: string, p: int, sc: char, season: string, ec: char, episode: string)
    requires IsS(sc) && IsE(ec) && |season| == 2 && AllDigits(season) && |episode| == 2 && AllDigits(episode)
    requires 0 <= p && p + 7 <= |s| && s[p..p + 7] == EpisodeTag(sc, season, ec, episode)
    ensures EpisodeTagAt(s, p) && s[p + 2..p + 4] == season && s[p + 5..p + 7] == episode
  {
    var t := s[p..p + 7];
    assert t[0] == '.' && t[1] == sc && t[2..4] == season && t[4] == ec && t[5..7] == episode;
    assert forall i :: 0 <= i < 7 ==> s[p + i] == t[i];
    assert s[p + 2..p + 4] == t[2..4];
    assert s[p + 5..p + 7] == t[5..7];
  }

  lemma YearSlice(s: string, k: int, year: string)
    requires |year| == 4 && AllDigits(year)
    requires 0 <= k && k + 5 <= |s| && s[k..k + 5] == YearText(Some(year))
    ensures YearAt(s, k) && s[k + 1..k + 5] == year
  {
    var t := s[k..k + 5];
    assert t[0] == '.' && t[1..] == year;
    assert forall i :: 0 <= i < 5 ==> s[k + i] == t[i];
    assert s[k + 1..k + 5] == t[1..];
  }

  lemma TailSlice(s: string, q: int, extra: Option<string>)
    requires 0 <= q <= |s| && s[q..] == ExtraText(extra)
    ensures TailAt(s, q) && TailGroup(s, q) == extra
  {
    if q < |s| {
      assert s[q..][0] == s[q];
      assert s[q + 1..] == s[q..][1..];
    }
  }

  /** The lazy `(.+?)`: try show lengths `k`, `k + 1`, ... and stop at the first
      one for which the rest of the pattern matches. */
  function TvScan(s: string, k: int): (r: Option<TvMatch>)
    requires 1 <= k
    ensures r.Some? ==> k <= |r.value.show| && TvMatchesAt(s, |r.value.show|)
    ensures r.Some? ==> r.value == TvGroupsAt(s, |r.value.show|)
    ensures r.Some? ==> forall j :: k <= j < |r.value.show| ==> !TvMatchesAt(s, j)
    ensures r.None? ==> forall j :: k <= j ==> !TvMatchesAt(s, j)
    decreases |s| - k
  {
    if |s| < k + 7 then None
    else if TvMatchesAt(s, k) then Some(TvGroupsAt(s, k))
    else TvScan(s, k + 1)
  }

  /** The TV pattern on a newline-free text: the result is a parse, its show group
      is the shortest of all parses, and there is no result only when there is no
      parse at all. */
  function MatchTvLine(s: string): (r: Option<TvMatch>)
    ensures r.Some? ==> IsTvParse(s, r.value)
    ensures r.Some? ==> forall m :: IsTvParse(s, m) ==> |r.value.show| <= |m.show|
    ensures r.None? <==> forall m :: !IsTvParse(s, m)
  {
    var r := TvScan(s, 1);
    TvScanIsShortestParse(s, r);
    r
  }

  lemma TvScanIsShortestParse(s: string, r: Option<TvMatch>)
    requires r == TvScan(s, 1)
    ensures r.Some? ==> IsTvParse(s, r.value)
    ensures r.Some? ==> forall m :: IsTvParse(s, m) ==> |r.value.show| <= |m.show|
    ensures r.None? ==> forall m :: !IsTvParse(s, m)
  {
    if r.Some? {
      GroupsAtIsParse(s, |r.value.show|);
    }
    forall m | IsTvParse(s, m)
      ensures r.Some? && |r.value.show| <= |m.show|
    {
      ParseIsGroupsAt(s, m);
    }
  }

  /** Two parses with equally long show groups are the same parse, so the match
      is THE shortest parse. */
  lemma TvParseUnique(s: string, m1: TvMatch, m2: TvMatch)
    requires IsTvParse(s, m1) && IsTvParse(s, m2) && |m1.show| == |m2.show|
    ensures m1 == m2
  {
    ParseIsGroupsAt(s, m1);
    ParseIsGroupsAt(s, m2);
  }

  /** What `$` sees: the name without one final newline. */
  function TrimFinalNewline(name: string): string {
    if |name| > 0 && name[|name| - 1] == '\n' then name[..|name| - 1] else name
  }

  /** `match_tv_show`: no group can hold a newline, and `$` also matches before a
      final newline. */
  function MatchTv(name: string): (r: Option<TvMatch>)
    ensures r.Some? <==> '\n' !in TrimFinalNewline(name) && exists m :: IsTvParse(TrimFinalNewline(name), m)
    ensures r.Some? ==> IsTvParse(TrimFinalNewline(name), r.value)
    ensures r.Some? ==> forall m :: IsTvParse(TrimFinalNewline(name), m) ==> |r.value.show| <= |m.show|
  {
    var line := TrimFinalNewline(name);
    if '\n' in line then None else MatchTvLine(line)
  }

  // ---------------------------------------------------------------------------
  // Movie pattern

  /** The three groups of the movie match: title, year and the rest. */
  datatype MovieMatch = MovieMatch(title: string, year: string, rest: string)

  /** `m` is one way of reading the newline-free text `s` against the movie pattern. */
  ghost predicate IsMovieParse(s: string, m: MovieMatch) {
    && |m.title| >= 1 && |m.year| == 4 && AllDigits(m.year) && |m.rest| >= 1
    && s == MovieRender(m)
  }

  /** The text a movie match stands for. */
  function MovieRender(m: MovieMatch): string {
    m.title + ("." + m.year + ".") + m.rest
  }

  /** `.YYYY.` starts at `k`, with a non-empty title before it and at least one character after it. */
  predicate MovieYearAt(s: string, k: int) {
    && 1 <= k && k + 7 <= |s|
    && s[k] == '.' && IsDigit(s[k + 1]) && IsDigit(s[k + 2]) && IsDigit(s[k + 3]) && IsDigit(s[k + 4])
    && s[k + 5] == '.'
  }

  function MovieGroupsAt(s: string, k: int): MovieMatch
    requires MovieYearAt(s, k)
  {
    MovieMatch(s[..k], s[k + 1..k + 5], s[k + 6..])
  }

  lemma MovieGroupsAtIsParse(s: string, k: int)
    requires MovieYearAt(s, k)
    ensures IsMovieParse(s, MovieGroupsAt(s, k)) && |MovieGroupsAt(s, k).title| == k
  {
    var m := MovieGroupsAt(s, k);
    assert s[k..k + 6] == "." + m.year + ".";
    assert s == s[..k] + s[k..k + 6] + s[k + 6..];
  }

  lemma MovieParseIsGroupsAt(s: string, m: MovieMatch)
    requires IsMovieParse(s, m)
    ensures MovieYearAt(s, |m.title|) && MovieGroupsAt(s, |m.title|) == m
  {
    var k := |m.title|;
    var mid := "." + m.year + ".";
    assert s == m.title + mid + m.rest;
    assert s[..k] == m.title;
    assert s[k..k + 6] == mid;
    assert s[k + 6..] == m.rest;
    assert s[k + 1..k + 5] == mid[1..5] == m.year;
    assert forall i :: 0 <= i < 6 ==> s[k + i] == mid[i];
  }

  /** The greedy `(.+)`: try title lengths `k - 1`, `k - 2`, ... and stop at the
      first one followed by `.YYYY.` and one more character. */
  function MovieScan(s: string, k: int): (r: Option<MovieMatch>)
    ensures r.Some? ==> |r.value.title| < k && MovieYearAt(s, |r.value.title|)
    ensures r.Some? ==> r.value == MovieGroupsAt(s, |r.value.title|)
    ensures r.Some? ==> forall j :: |r.value.title| < j < k ==> !MovieYearAt(s, j)
    ensures r.None? ==> forall j :: j < k ==> !MovieYearAt(s, j)
    decreases k
  {
    if k <= 1 then None
    else if MovieYearAt(s, k - 1) then Some(MovieGroupsAt(s, k - 1))
    else MovieScan(s, k - 1)
  }

  /** The movie pattern on a newline-free text: the result is a parse, its title
      is the longest of all parses (its year is the rightmost `.YYYY.` with text
      after it), and there is no result only when there is no parse at all. */
  function MatchMovieLine(s: string): (r: Option<MovieMatch>)
    ensures r.Some? ==> IsMovieParse(s, r.value)
    ensures r.Some? ==> forall m :: IsMovieParse(s, m) ==> |m.title| <= |r.value.title|
    ensures r.None? <==> forall m :: !IsMovieParse(s, m)
  {
    var r := MovieScan(s, |s|);
    MovieScanIsParse(s, r);
    MovieScanIsLongest(s, r);
    r
  }

  lemma MovieScanIsParse(s: string, r: Option<MovieMatch>)
    requires r == MovieScan(s, |s|)
    ensures r.Some? ==> IsMovieParse(s, r.value)
  {
    if r.Some? {
      MovieGroupsAtIsParse(s, |r.value.title|);
    }
  }

  lemma MovieScanIsLongest(s: string, r: Option<MovieMatch>)
    requires r.None? ==> forall j :: j < |s| ==> !MovieYearAt(s, j)
    requires r.Some? ==> forall j :: |r.value.title| < j < |s| ==> !MovieYearAt(s, j)
    ensures forall m :: IsMovieParse(s, m) ==> r.Some? && |m.title| <= |r.value.title|
  {
    forall m | IsMovieParse(s, m)
      ensures r.Some? && |m.title| <= |r.value.title|
    {
      MovieParseIsLater(s, m, r);
    }
  }

  lemma MovieParseIsLater(s: string, m: MovieMatch, r: Option<MovieMatch>)
    requires r.None? ==> forall j :: j < |s| ==> !MovieYearAt(s, j)
    requires r.Some? ==> forall j :: |r.value.title| < j < |s| ==> !MovieYearAt(s, j)
    requires IsMovieParse(s, m)
    ensures r.Some? && |m.title| <= |r.value.title|
  {
    MovieParseIsGroupsAt(s, m);
    MovieYearAtBound(s, |m.title|);
  }

  lemma MovieYearAtBound(s: string, j: int)
    requires MovieYearAt(s, j)
    ensures j < |s|
  {
  }

  /** Two parses with equally long titles are the same parse. */
  lemma MovieParseUnique(s: string, m1: MovieMatch, m2: MovieMatch)
    requires IsMovieParse(s, m1) && IsMovieParse(s, m2) && |m1.title| == |m2.title|
    ensures m1 == m2
  {
    MovieParseIsGroupsAt(s, m1);
    MovieParseIsGroupsAt(s, m2);
  }

  /** The text before the first newline. */
  function FirstLine(name: string): (r: string)
    ensures '\n' !in r
    ensures r <= name
    ensures '\n' !in name ==> r == name
    ensures |r| < |name| ==> name[|r|] == '\n'
  {
    if |name| == 0 || name[0] == '\n' then [] else [name[0]] + FirstLine(name[1..])
  }

  /** `match_movie`: `re.match` without `$`, so the pattern only has to match a
      prefix; no group can cross a newline, and the greedy last group runs to the
      end of the first line. */
  function MatchMovie(name: string): (r: Option<MovieMatch>)
    ensures r.Some? ==> IsMovieParse(FirstLine(name), r.value)
    ensures r.Some? ==> forall m :: IsMovieParse(FirstLine(name), m) ==> |m.title| <= |r.value.title|
    ensures r.None? ==> forall m :: !IsMovieParse(FirstLine(name), m)
  {
    MatchMovieLine(FirstLine(name))
  }
}

=== FILE: plan.dfy ===
/** The main loop of the program as a plan: for each worklist entry, match its
    base name again, resolve it again (normally a cache hit now), and emit the
    file-system actions the loop performs. `os.makedirs`, `shutil.move` and
    `shutil.rmtree` become `MakeDir`, `Move` and `Remove`; what `os.walk` and
    `os.path.getsize` would report for a directory is the input `listing`. */
module Plan {
  import opened Wrappers
  import opened Text
  import opened Sanitizer
  import opened Patterns
  import opened Resolver
  import opened Naming
  import opened Library
  import opened Scanner

  datatype Action = MakeDir(dir: Path) | Move(src: Path, dst: Path) | Remove(dir: Path)

  /** The directory holding `p`. */
  function Parent(p: Path): Path {
    if |p| == 0 then [] else p[..|p| - 1]
  }

  /** `p` lies strictly inside the directory `dir`. */
  predicate Below(p: Path, dir: Path) {
    |p| > |dir| && p[..|dir|] == dir
  }

  /** `move_and_rename_largest_file(source, dest, new_name)`: the move it asks
      for, if a media file was found. The source path is `source/basename`,
      wherever in the tree the file was found; the destination is
      `{new_name}{ext}` joined onto `dest`, which the name is not sanitized for. */
  function MoveLargest(source: Path, dest: Path, newName: string, files: seq<FileEntry>): (acts: seq<Action>)
    ensures |acts| <= 1
    ensures acts == [] <==> forall j :: 0 <= j < |files| ==> !IsMediaFile(files[j].name)
    ensures acts != [] ==>
      && acts[0].Move?
      && Parent(acts[0].src) == source && Below(acts[0].dst, dest)
      && (exists i :: IsSelected(files, i) && acts[0].src == Join(source, files[i].name))
      && acts[0].dst == JoinName(dest, newName + Extension(Basename(acts[0].src)))
  {
    match LargestFile(files)
    case None => []
    case Some(f) =>
      var src := Join(source, f);
      assert Parent(src) == source;
      [Move(src, JoinName(dest, newName + Extension(f)))]
  }

  /** One successful iteration of the loop: create the destination, move the
      largest file, remove the source directory. */
  function Relocate(source: Path, dest: Path, newName: string, files: seq<FileEntry>): seq<Action> {
    [MakeDir(dest)] + MoveLargest(source, dest, newName, files) + [Remove(source)]
  }

  /** The block `Relocate` emits: a directory creation, the move if a media file
      exists, and the removal of the source, which happens whether or not a file
      was moved. */
  ghost predicate IsRelocation(acts: seq<Action>, source: Path, files: seq<FileEntry>) {
    && |acts| == (if LargestFile(files).Some? then 3 else 2)
    && acts[0].MakeDir?
    && acts[|acts| - 1] == Remove(source)
    && (|acts| == 3 ==> acts[1].Move? && Parent(acts[1].src) == source && Below(acts[1].dst, acts[0].dir))
  }

  lemma RelocateShape(source: Path, dest: Path, newName: string, files: seq<FileEntry>)
    ensures IsRelocation(Relocate(source, dest, newName, files), source, files)
    ensures Relocate(source, dest, newName, files)[0] == MakeDir(dest)
  {
  }

  /** When a file is moved, it keeps its extension under the new name; without a
      separator in that name it lands directly in the created directory. */
  lemma MoveDestination(source: Path, dest: Path, newName: string, files: seq<FileEntry>)
    requires |Relocate(source, dest, newName, files)| == 3
    ensures var mv := Relocate(source, dest, newName, files)[1];
      && mv.Move? && mv.dst == JoinName(dest, newName + Extension(Basename(mv.src)))
      && (!HasSeparator(newName + Extension(Basename(mv.src))) ==> Parent(mv.dst) == dest && Basename(mv.dst) == newName + Extension(Basename(mv.src)))
  {
    assert Relocate(source, dest, newName, files)[1] == MoveLargest(source, dest, newName, files)[0];
  }

  /** A new name holding a separator, such as a title `Face/Off`, does not land in
      the created directory: Windows reads the part before the separator as a
      further directory, which nothing creates. */
  lemma SeparatedNameMissesDirectory(source: Path, dest: Path, newName: string, files: seq<FileEntry>)
    requires |Relocate(source, dest, newName, files)| == 3
    requires HasSeparator(newName)
    ensures var mv := Relocate(source, dest, newName, files)[1];
      mv.Move? && Below(mv.dst, dest) && Parent(mv.dst) != dest
  {
    var mv := Relocate(source, dest, newName, files)[1];
    assert mv == MoveLargest(source, dest, newName, files)[0];
    var full := newName + Extension(Basename(mv.src));
    var j :| 0 <= j < |newName| && IsSeparator(newName[j]);
    assert full[j] == newName[j];
    assert HasSeparator(full);
  }

  /** The created directory lies inside the Plex library. */
  predicate InLibrary(p: Path) {
    |p| > |PlexBase| && p[..|PlexBase|] == PlexBase
  }

  /** The TV branch of the loop once `process_tv_show_match` has returned `t`:
      relocate into the season directory when the show and formatted names are truthy. */
  function PlanTv(source: Path, t: Option<TvResolved>, files: seq<FileEntry>): (acts: seq<Action>)
    requires t.Some? ==> AllDigits(t.value.season)
    ensures acts != [] <==> t.Some? && t.value.showName != "" && t.value.formatted != ""
    ensures acts != [] ==>
      && t.Some?
      && acts == Relocate(source, SeasonDirectory(t.value.showName, DigitsValue(t.value.season), None), t.value.formatted, files)
      && IsRelocation(acts, source, files) && InLibrary(acts[0].dir)
  {
    if t.Some? && t.value.showName != "" && t.value.formatted != "" then
      var dest := SeasonDirectory(t.value.showName, DigitsValue(t.value.season), None);
      RelocateShape(source, dest, t.value.formatted, files);
      Relocate(source, dest, t.value.formatted, files)
    else []
  }

  /** The movie branch of the loop once `process_movie_match` has returned `name`. */
  function PlanMovie(source: Path, name: Option<string>, files: seq<FileEntry>): (acts: seq<Action>)
    ensures acts != [] <==> name.Some? && name.value != ""
    ensures acts != [] ==>
      && name.Some?
      && acts == Relocate(source, MovieDirectory(name.value, None), name.value, files)
      && IsRelocation(acts, source, files) && InLibrary(acts[0].dir)
  {
    if name.Some? && name.value != "" then
      var dest := MovieDirectory(name.value, None);
      RelocateShape(source, dest, name.value, files);
      Relocate(source, dest, name.value, files)
    else []
  }

  /** One iteration of the main loop for entry `e`: match the base name again and
      process the match again. `Failure` is an exception, which nothing in the
      loop catches. */
  function PlanEntry(ctx: Context, e: Entry, listing: Path -> seq<FileEntry>, caches: Caches): (r: (Result<seq<Action>, string>, Caches))
    ensures r.0.Failure? ==> r.1 == caches
    ensures r.0.Success? && r.0.value != [] ==>
      IsRelocation(r.0.value, e.source, listing(e.source)) && InLibrary(r.0.value[0].dir)
  {
    var files := listing(e.source);
    if e.kind == TvShow then
      var tv := MatchTv(Basename(e.source));
      if tv.None? then (Success([]), caches)
      else
        var (outcome, shows) := ProcessTvMatch(ctx, tv.value, caches.shows);
        match outcome
        case Failure(msg) => (Failure(msg), caches.(shows := shows))
        case Success(t) => (Success(PlanTv(e.source, t, files)), caches.(shows := shows))
    else
      var movie := MatchMovie(Basename(e.source));
      if movie.None? then (Success([]), caches)
      else
        var (outcome, movies) := ProcessMovieMatch(ctx, movie.value, caches.movies);
        match outcome
        case Failure(msg) => (Failure(msg), caches.(movies := movies))
        case Success(name) => (Success(PlanMovie(e.source, name, files)), caches.(movies := movies))
  }

  /** Which outcomes of one iteration end the loop, and the caches it hands on. */
  lemma PlanEntryOutcome(ctx: Context, e: Entry, listing: Path -> seq<FileEntry>, caches: Caches)
    // the loop ends exactly when the second lookup raises; a name that no longer
    // matches, or a lookup that returns nothing, only skips the entry
    ensures var name := Basename(e.source);
      var r := PlanEntry(ctx, e, listing, caches);
      r.0.Failure? <==>
        if e.kind == TvShow then
          MatchTv(name).Some? && ProcessTvMatch(ctx, MatchTv(name).value, caches.shows).0.Failure?
        else
          MatchMovie(name).Some? && ProcessMovieMatch(ctx, MatchMovie(name).value, caches.movies).0.Failure?
    // after a success the caches are what the lookup left, and untouched without a match
    ensures var name := Basename(e.source);
      var r := PlanEntry(ctx, e, listing, caches);
      r.0.Success? ==>
        r.1 == if e.kind == TvShow then
                 if MatchTv(name).Some? then caches.(shows := ProcessTvMatch(ctx, MatchTv(name).value, caches.shows).1) else caches
               else
                 if MatchMovie(name).Some? then caches.(movies := ProcessMovieMatch(ctx, MatchMovie(name).value, caches.movies).1) else caches
  {
  }

  /** A planned TV episode goes to `Series/Shows/{show}/Season {ss}`, where `ss` is
      the season text of the directory name, under the name
      `{show} - S{ss}E{ee} - {episode}` built from the episode the cache now holds. */
  lemma PlanTvDestination(ctx: Context, e: Entry, listing: Path -> seq<FileEntry>, caches: Caches)
    requires e.kind == TvShow
    requires PlanEntry(ctx, e, listing, caches).0.Success? && PlanEntry(ctx, e, listing, caches).0.value != []
    ensures MatchTv(Basename(e.source)).Some?
    ensures var m := MatchTv(Basename(e.source)).value;
      var (outcome, caches1) := PlanEntry(ctx, e, listing, caches);
      var acts := outcome.value;
      var cached := CachedEpisode(caches1.shows, TvQueryName(m), DigitsValue(m.season), DigitsValue(m.episode));
      && cached.Some?
      && acts[0] == MakeDir(SeasonDirectory(cached.value.name, DigitsValue(m.season), None))
      && acts[0].dir[|PlexBase| + 3] == "Season " + m.season
      && (|acts| == 3 ==>
            acts[1].dst
            == JoinName(acts[0].dir, TvCanonicalName(cached.value.name, m.season, m.episode, cached.value.episodeName) + Extension(Basename(acts[1].src))))
  {
    var m := MatchTv(Basename(e.source)).value;
    var (outcome, shows) := ProcessTvMatch(ctx, m, caches.shows);
    var files := listing(e.source);
    var acts := PlanTv(e.source, outcome.value, files);
    assert PlanEntry(ctx, e, listing, caches) == (Success(acts), caches.(shows := shows));
    var t := outcome.value.value;
    var cached := CachedEpisode(shows, TvQueryName(m), DigitsValue(m.season), DigitsValue(m.episode));
    assert t.showName == cached.value.name && t.season == m.season;
    SeasonSegmentKeepsText(cached.value.name, m.season, None);
    if |acts| == 3 {
      MoveDestination(e.source, SeasonDirectory(t.showName, DigitsValue(t.season), None), t.formatted, files);
    }
  }

  /** A planned movie goes to `Movies/{sanitized name}` with no year appended, and
      its file is named `{title} ({year})` with the year of the directory name. */
  lemma PlanMovieDestination(ctx: Context, e: Entry, listing: Path -> seq<FileEntry>, caches: Caches)
    requires e.kind == Movie
    requires PlanEntry(ctx, e, listing, caches).0.Success? && PlanEntry(ctx, e, listing, caches).0.value != []
    ensures MatchMovie(Basename(e.source)).Some?
    ensures var m := MatchMovie(Basename(e.source)).value;
      var (outcome, caches1) := PlanEntry(ctx, e, listing, caches);
      var acts := outcome.value;
      && CacheKey(MovieQueryName(m)) in caches1.movies
      && var name := MovieCanonicalName(caches1.movies[CacheKey(MovieQueryName(m))].title, m.year);
      && acts[0] == MakeDir(MovieDirectory(name, None))
      && acts[0].dir[|PlexBase| + 1] == Sanitize(name)
      && (|acts| == 3 ==> acts[1].dst == JoinName(acts[0].dir, name + Extension(Basename(acts[1].src))))
  {
    var m := MatchMovie(Basename(e.source)).value;
    var (outcome, movies) := ProcessMovieMatch(ctx, m, caches.movies);
    var files := listing(e.source);
    var acts := PlanMovie(e.source, outcome.value, files);
    assert PlanEntry(ctx, e, listing, caches) == (Success(acts), caches.(movies := movies));
    MovieRelocation(e.source, outcome.value.value, files);
  }

  lemma MovieRelocation(source: Path, name: string, files: seq<FileEntry>)
    requires name != ""
    ensures var acts := PlanMovie(source, Some(name), files);
      && acts[0] == MakeDir(MovieDirectory(name, None))
      && acts[0].dir[|PlexBase| + 1] == Sanitize(name)
      && (|acts| == 3 ==> acts[1].dst == JoinName(acts[0].dir, name + Extension(Basename(acts[1].src))))
  {
    var acts := PlanMovie(source, Some(name), files);
    if |acts| == 3 {
      MoveDestination(source, MovieDirectory(name, None), name, files);
    }
  }

  /** The loop's second resolution of `e` succeeds with truthy names: the show
      and formatted names of the 4-tuple for a TV entry, the formatted name for a
      movie. */
  predicate ResolvedForMove(ctx: Context, e: Entry, caches: Caches) {
    if e.kind == TvShow then
      var tv := MatchTv(Basename(e.source));
      && tv.Some?
      && var o := ProcessTvMatch(ctx, tv.value, caches.shows).0;
         o.Success? && o.value.Some? && o.value.value.showName != "" && o.value.value.formatted != ""
    else
      var movie := MatchMovie(Basename(e.source));
      && movie.Some?
      && var o := ProcessMovieMatch(ctx, movie.value, caches.movies).0;
         o.Success? && o.value.Some? && o.value.value != ""
  }

  /** The loop acts on an entry exactly when its second resolution succeeds with
      truthy names, and then the last thing it does is remove the source directory. */
  lemma RemovedWhenResolved(ctx: Context, e: Entry, listing: Path -> seq<FileEntry>, caches: Caches)
    ensures var r := PlanEntry(ctx, e, listing, caches).0;
      (r.Success? && r.value != []) <==> ResolvedForMove(ctx, e, caches)
    ensures var r := PlanEntry(ctx, e, listing, caches).0;
      ResolvedForMove(ctx, e, caches) ==> r.Success? && |r.value| >= 2 && r.value[|r.value| - 1] == Remove(e.source)
  {
  }

  /** The source directory is removed even when it holds no media file to move. */
  lemma RemovedWithoutMove(ctx: Context, e: Entry, listing: Path -> seq<FileEntry>, caches: Caches)
    requires ResolvedForMove(ctx, e, caches)
    requires forall j :: 0 <= j < |listing(e.source)| ==> !IsMediaFile(listing(e.source)[j].name)
    ensures var r := PlanEntry(ctx, e, listing, caches).0;
      r.Success? && |r.value| == 2 && r.value[0].MakeDir? && r.value[1] == Remove(e.source)
  {
    RemovedWhenResolved(ctx, e, listing, caches);
  }

  /** The whole plan: the actions in order, the message of the exception that
      ended the loop early (if one did), and the caches afterwards. */
  datatype PlanResult = PlanResult(actions: seq<Action>, aborted: Option<string>, caches: Caches)

  /** Safety of a plan for `entries`: every move sits right after the creation of
      its destination directory and right before the removal of its source
      directory; every removal is of a worklist directory; every created directory
      lies inside the Plex library. */
  ghost predicate PlanSafe(acts: seq<Action>, entries: seq<Entry>) {
    && (forall i :: 0 <= i < |acts| && acts[i].Move? ==>
          && 0 < i < |acts| - 1
          && acts[i - 1].MakeDir? && Below(acts[i].dst, acts[i - 1].dir)
          && acts[i + 1] == Remove(Parent(acts[i].src)))
    && (forall i :: 0 <= i < |acts| && acts[i].Remove? ==> exists j :: 0 <= j < |entries| && entries[j].source == acts[i].dir)
    && (forall i :: 0 <= i < |acts| && acts[i].MakeDir? ==> InLibrary(acts[i].dir))
  }

  /** The `for` loop of the main block over the worklist. */
  function PlanAll(ctx: Context, entries: seq<Entry>, listing: Path -> seq<FileEntry>, caches: Caches): (r: PlanResult)
    ensures PlanSafe(r.actions, entries)
    decreases |entries|
  {
    if |entries| == 0 then PlanResult([], None, caches)
    else
      var (outcome, caches1) := PlanEntry(ctx, entries[0], listing, caches);
      match outcome
      case Failure(msg) => PlanResult([], Some(msg), caches1)
      case Success(acts) =>
        var rest := PlanAll(ctx, entries[1..], listing, caches1);
        EntryPlanSafe(ctx, entries, listing, caches);
        RestPlanSafe(rest.actions, entries);
        PlanSafeConcat(acts, rest.actions, entries);
        PlanResult(acts + rest.actions, rest.aborted, rest.caches)
  }

  /** The loop takes the worklist in order: the first entry's actions come first,
      then the rest of the loop from the caches it left behind; an exception in
      the first entry ends the loop there with its message and no actions from it. */
  lemma PlanAllCons(ctx: Context, e: Entry, rest: seq<Entry>, listing: Path -> seq<FileEntry>, caches: Caches)
    ensures var (o, c1) := PlanEntry(ctx, e, listing, caches);
      PlanAll(ctx, [e] + rest, listing, caches)
        == if o.Failure? then PlanResult([], Some(o.error), c1)
           else var r := PlanAll(ctx, rest, listing, c1); PlanResult(o.value + r.actions, r.aborted, r.caches)
  {
    assert ([e] + rest)[0] == e && ([e] + rest)[1..] == rest;
  }

  lemma EntryPlanSafe(ctx: Context, entries: seq<Entry>, listing: Path -> seq<FileEntry>, caches: Caches)
    requires |entries| > 0
    requires PlanEntry(ctx, entries[0], listing, caches).0.Success?
    ensures PlanSafe(PlanEntry(ctx, entries[0], listing, caches).0.value, entries)
  {
    var e := entries[0];
    var acts := PlanEntry(ctx, e, listing, caches).0.value;
    if acts != [] {
      RelocationSafe(acts, e.source, listing(e.source), entries, 0);
    }
  }

  lemma RelocationSafe(acts: seq<Action>, source: Path, files: seq<FileEntry>, entries: seq<Entry>, j: int)
    requires IsRelocation(acts, source, files) && InLibrary(acts[0].dir)
    requires 0 <= j < |entries| && entries[j].source == source
    ensures PlanSafe(acts, entries)
  {
  }

  lemma RestPlanSafe(acts: seq<Action>, entries: seq<Entry>)
    requires |entries| > 0 && PlanSafe(acts, entries[1..])
    ensures PlanSafe(acts, entries)
  {
    forall i | 0 <= i < |acts| && acts[i].Remove?
      ensures exists j :: 0 <= j < |entries| && entries[j].source == acts[i].dir
    {
      var j :| 0 <= j < |entries[1..]| && entries[1..][j].source == acts[i].dir;
      assert entries[j + 1].source == acts[i].dir;
    }
  }

  /** Safety survives putting two safe plans one after the other. */
  lemma PlanSafeConcat(a: seq<Action>, b: seq<Action>, entries: seq<Entry>)
    requires PlanSafe(a, entries) && PlanSafe(b, entries)
    ensures PlanSafe(a + b, entries)
  {
    var ab := a + b;
    forall i | 0 <= i < |ab| && ab[i].Move?
      ensures 0 < i < |ab| - 1 && ab[i - 1].MakeDir? && Below(ab[i].dst, ab[i - 1].dir) && ab[i + 1] == Remove(Parent(ab[i].src))
    {
      if i < |a| {
        assert ab[i] == a[i] && ab[i - 1] == a[i - 1] && ab[i + 1] == a[i + 1];
      } else {
        var k := i - |a|;
        assert ab[i] == b[k] && ab[i - 1] == b[k - 1] && ab[i + 1] == b[k + 1];
      }
    }
    forall i | 0 <= i < |ab| && ab[i].Remove?
      ensures exists j :: 0 <= j < |entries| && entries[j].source == ab[i].dir
    {
      if i < |a| { assert ab[i] == a[i]; } else { assert ab[i] == b[i - |a|]; }
    }
    forall i | 0 <= i < |ab| && ab[i].MakeDir?
      ensures InLibrary(ab[i].dir)
    {
      if i < |a| { assert ab[i] == a[i]; } else { assert ab[i] == b[i - |a|]; }
    }
  }

  // ---------------------------------------------------------------------------
  // The whole program

  /** Everything one run produces: the report text, the lines appended to the
      error log, the file-system actions, the exception that ended the main loop
      early (if any), and the caches at the end. */
  datatype RunResult = RunResult(report: string, errorLog: seq<string>, actions: seq<Action>, aborted: Option<string>, caches: Caches)

  /** The `__main__` block from `list_directories` on, for the subdirectory names
      `dirs` of `root`. The report is written before any action is taken. */
  function Run(ctx: Context, tupleText: Option<TvResolved> -> string, root: Path, dirs: seq<string>,
               listing: Path -> seq<FileEntry>, caches: Caches): (r: RunResult)
    ensures |r.report| >= |ReportHeader| && r.report[..|ReportHeader|] == ReportHeader
    ensures |r.errorLog| <= |dirs|
    // the run only ever deletes subdirectories of the root that it scanned
    ensures forall i :: 0 <= i < |r.actions| && r.actions[i].Remove? ==>
      exists d :: d in dirs && r.actions[i].dir == Join(root, d)
    // every moved file comes from one of those directories and lands inside the library
    ensures forall i :: 0 <= i < |r.actions| && r.actions[i].Move? ==>
      && (exists d :: d in dirs && Parent(r.actions[i].src) == Join(root, d))
      && InLibrary(Parent(r.actions[i].dst))
    // the report and the error log come from the scan, the actions from the loop over its worklist
    ensures var scan := ListDirectories(ctx, tupleText, root, dirs, caches);
      var plan := PlanAll(ctx, scan.entries, listing, scan.caches);
      && r.report == ReportText(scan.entries) && r.errorLog == scan.errors
      && r.actions == plan.actions && r.aborted == plan.aborted && r.caches == plan.caches
  {
    var scan := ListDirectories(ctx, tupleText, root, dirs, caches);
    var plan := PlanAll(ctx, scan.entries, listing, scan.caches);
    RunRemovesOnlyScanned(root, dirs, scan.entries, plan.actions);
    RunResult(ReportText(scan.entries), scan.errors, plan.actions, plan.aborted, plan.caches)
  }

  lemma RunRemovesOnlyScanned(root: Path, dirs: seq<string>, entries: seq<Entry>, acts: seq<Action>)
    requires WorklistSound(root, dirs, entries) && PlanSafe(acts, entries)
    ensures forall i :: 0 <= i < |acts| && acts[i].Remove? ==> exists d :: d in dirs && acts[i].dir == Join(root, d)
    ensures forall i :: 0 <= i < |acts| && acts[i].Move? ==>
      && (exists d :: d in dirs && Parent(acts[i].src) == Join(root, d))
      && InLibrary(Parent(acts[i].dst))
  {
    forall i | 0 <= i < |acts| && acts[i].Remove?
      ensures exists d :: d in dirs && acts[i].dir == Join(root, d)
    {
      var j :| 0 <= j < |entries| && entries[j].source == acts[i].dir;
      assert Basename(entries[j].source) in dirs;
    }
    forall i | 0 <= i < |acts| && acts[i].Move?
      ensures exists d :: d in dirs && Parent(acts[i].src) == Join(root, d)
    {
      assert acts[i + 1] == Remove(Parent(acts[i].src));
    }
    forall i | 0 <= i < |acts| && acts[i].Move?
      ensures InLibrary(Parent(acts[i].dst))
    {
      BelowInLibrary(acts[i].dst, acts[i - 1].dir);
    }
  }

  /** A path strictly inside a library directory has its parent in the library. */
  lemma BelowInLibrary(p: Path, dir: Path)
    requires Below(p, dir) && InLibrary(dir)
    ensures InLibrary(Parent(p))
  {
    assert Parent(p)[..|PlexBase|] == dir[..|PlexBase|];
  }
}

=== FILE: resolver.dfy ===
/** The metadata resolver: `get_tv_show_info` and `get_movie_info`.

    Both follow one policy: a missing API key raises before anything else; then
    the on-disk cache (one JSON file per show or movie, named after the
    sanitized name) is consulted; only on a miss is the remote service asked,
    and a successful answer is written back to the cache. The cache is a `map`
    from the cache file's name to record, threaded through as state; the remote
    services are function-valued fields of a `Context`. */
module Resolver {
  import opened Wrappers
  import opened Text
  import opened Sanitizer

  /** A decoded JSON object whose values the model treats as strings. */
  type JsonObject = map<string, string>

  /** `obj[key]`: Python raises `KeyError`, whose `str()` is the quoted key. */
  function Field(obj: JsonObject, key: string): Result<string, string> {
    if key in obj then Success(obj[key]) else Failure("'" + key + "'")
  }

  /** What a call into `tvdb_api` produces: an answer, one of its
      show/season/episode-not-found exceptions, or any other exception. */
  datatype Remote<T> = Answer(value: T) | NotFound | Failed(message: string)

  /** What `requests.get` produces: an exception, or a response with its `ok`
      flag and its body as `response.json()` decodes it (or the decoder's error). */
  datatype HttpOutcome = HttpFailed(message: string) | HttpReply(ok: bool, body: Result<JsonObject, string>)

  /** Contents of `tv_show_{name}.json`: `seasons[str(season)][str(episode)]` holds the episode name. */
  datatype ShowEntry = ShowEntry(name: string, firstAired: string, seasons: map<string, map<string, string>>)

  /** Contents of `movie_{name}.json`, which is also what `get_movie_info` returns. */
  datatype MovieRecord = MovieRecord(title: string, year: string, director: string, imdbRating: string)

  /** What `get_tv_show_info` returns on success. */
  datatype EpisodeInfo = EpisodeInfo(name: string, firstAired: string, episodeName: string)

  /** The three ways a resolver call ends: a record, `None`, or an exception. */
  datatype Resolution<T> = Resolved(info: T) | Unresolved | Raised(message: string)

  /** Letter case as the Windows file system compares names: ASCII upper case
      is folded to lower case. */
  function FoldChar(c: char): char {
    if 'A' <= c <= 'Z' then (c as int + 32) as char else c
  }

  function Fold(s: string): (r: string)
    ensures |r| == |s| && forall i :: 0 <= i < |s| ==> r[i] == FoldChar(s[i])
  {
    seq(|s|, i requires 0 <= i < |s| => FoldChar(s[i]))
  }

  /** The cache file a name's record lives in, `{prefix}{sanitize_name(name)}.json`
      under `CACHE_DIR`, identified as the file system identifies it: two names
      share a file when their sanitized forms differ only in letter case. */
  function CacheKey(name: string): string {
    Fold(Sanitize(name))
  }

  /** Names that differ only in letter case share one cache file. */
  lemma CacheKeyIgnoresCase(a: string, b: string)
    requires Fold(a) == Fold(b)
    ensures CacheKey(a) == CacheKey(b)
  {
    FoldSanitize(a);
    FoldSanitize(b);
  }

  /** Folding case and deleting the forbidden characters commute, since folding
      neither creates nor removes a forbidden character. */
  lemma {:induction false} FoldSanitize(s: string)
    ensures Fold(Sanitize(s)) == Sanitize(Fold(s))
    decreases |s|
  {
    if |s| > 0 {
      var f := Fold(s);
      assert f[0] == FoldChar(s[0]) && f[1..] == Fold(s[1..]);
      assert Fold(Keep(s[0])) == Keep(FoldChar(s[0]));
      FoldSanitize(s[1..]);
      FoldConcat(Keep(s[0]), Sanitize(s[1..]));
    }
  }

  lemma FoldConcat(a: string, b: string)
    ensures Fold(a + b) == Fold(a) + Fold(b)
  {
  }

  type ShowCache = map<string, ShowEntry>
  type MovieCache = map<string, MovieRecord>

  /** The environment: the two API keys (`None` when the variable is unset) and the
      remote calls, each given the key it is made with.
      `searchShows(key, name)` is `Tvdb(apikey=key).search(name)`;
      `fetchEpisode(key, id, season, episode)` is `t[id][season][episode]`;
      `fetchMovie(key, title)` is the OMDb request for `title`. */
  datatype Context = Context(
    tvdbKey: Option<string>,
    omdbKey: Option<string>,
    searchShows: (string, string) -> Remote<seq<JsonObject>>,
    fetchEpisode: (string, string, nat, nat) -> Remote<JsonObject>,
    fetchMovie: (string, string) -> HttpOutcome)

  /** Python's `not api_key` is false: set and non-empty. */
  predicate KeyPresent(key: Option<string>) {
    key.Some? && key.value != ""
  }

  const MissingTvdbKey := "TVDB API key is missing"
  const MissingOmdbKey := "OMDb API key is missing"

  // ---------------------------------------------------------------------------
  // TV

  /** The cached episode `seasons[str(season)][str(episode)]` of the show's cache file, if any. */
  function CachedEpisode(cache: ShowCache, showName: string, season: nat, episode: nat): Option<EpisodeInfo> {
    var key := CacheKey(showName);
    if key in cache && Decimal(season) in cache[key].seasons && Decimal(episode) in cache[key].seasons[Decimal(season)] then
      var entry := cache[key];
      Some(EpisodeInfo(entry.name, entry.firstAired, entry.seasons[Decimal(season)][Decimal(episode)]))
    else None
  }

  /** The record written after a remote fetch: the show's fields and this one episode only. */
  function SingleEpisodeEntry(info: EpisodeInfo, season: nat, episode: nat): ShowEntry {
    ShowEntry(info.name, info.firstAired, map[Decimal(season) := map[Decimal(episode) := info.episodeName]])
  }

  /** The remote half of `get_tv_show_info`: search by the raw name, take the first
      hit, fetch the episode, and build the result from the hit and the episode. */
  function FetchTv(ctx: Context, key: string, showName: string, season: nat, episode: nat): Resolution<EpisodeInfo> {
    match ctx.searchShows(key, showName)
    case Failed(msg) => Raised(msg)
    case NotFound => Unresolved
    case Answer(hits) =>
      if |hits| == 0 then Unresolved
      else
        var show := hits[0];
        match Field(show, "id")
        case Failure(msg) => Raised(msg)
        case Success(id) =>
          match ctx.fetchEpisode(key, id, season, episode)
          case Failed(msg) => Raised(msg)
          case NotFound => Unresolved
          case Answer(ep) =>
            if "seriesName" in show && "firstAired" in show && "episodeName" in ep then
              Resolved(EpisodeInfo(show["seriesName"], show["firstAired"], ep["episodeName"]))
            else Unresolved
  }

  /** `get_tv_show_info(api_key, show_name, season, episode)`, returning the outcome
      and the cache after the call. */
  function ResolveTv(ctx: Context, showName: string, season: nat, episode: nat, cache: ShowCache): (r: (Resolution<EpisodeInfo>, ShowCache))
    // a missing key raises before the cache or the remote is touched
    ensures !KeyPresent(ctx.tvdbKey) ==> r == (Raised(MissingTvdbKey), cache)
    // a cached episode is answered from the cache
    ensures KeyPresent(ctx.tvdbKey) && CachedEpisode(cache, showName, season, episode).Some? ==>
      r == (Resolved(CachedEpisode(cache, showName, season, episode).value), cache)
    // anything but success leaves the cache alone
    ensures !r.0.Resolved? ==> r.1 == cache
    // the only write replaces the whole show entry with a single-episode record
    ensures r.1 == cache || (r.0.Resolved? && r.1 == cache[CacheKey(showName) := SingleEpisodeEntry(r.0.info, season, episode)])
    // after a success the cache answers the same question with the same record
    ensures r.0.Resolved? ==> CachedEpisode(r.1, showName, season, episode) == Some(r.0.info)
  {
    if !KeyPresent(ctx.tvdbKey) then (Raised(MissingTvdbKey), cache)
    else
      var hit := CachedEpisode(cache, showName, season, episode);
      if hit.Some? then (Resolved(hit.value), cache)
      else
        var fetched := FetchTv(ctx, ctx.tvdbKey.value, showName, season, episode);
        if fetched.Resolved? then
          (fetched, cache[CacheKey(showName) := SingleEpisodeEntry(fetched.info, season, episode)])
        else (fetched, cache)
  }

  /** A cache hit answers without consulting the remote: any two remotes give the same outcome. */
  lemma TvCacheHitIgnoresRemote(ctx1: Context, ctx2: Context, showName: string, season: nat, episode: nat, cache: ShowCache)
    requires ctx1.tvdbKey == ctx2.tvdbKey && KeyPresent(ctx1.tvdbKey)
    requires CachedEpisode(cache, showName, season, episode).Some?
    ensures ResolveTv(ctx1, showName, season, episode, cache) == ResolveTv(ctx2, showName, season, episode, cache)
  {
  }

  /** Resolving the same episode again after a success is a cache hit with the same
      answer, whatever the remote would say now. */
  lemma TvRoundTrip(ctx: Context, ctx2: Context, showName: string, season: nat, episode: nat, cache: ShowCache)
    requires ResolveTv(ctx, showName, season, episode, cache).0.Resolved?
    requires ctx2.tvdbKey == ctx.tvdbKey
    ensures var (first, cache1) := ResolveTv(ctx, showName, season, episode, cache);
      ResolveTv(ctx2, showName, season, episode, cache1) == (first, cache1)
  {
  }

  /** A name that differs only in letter case finds the record the first lookup
      wrote, because both names map to the same cache file. */
  lemma TvCaseVariantHitsCache(ctx: Context, showName: string, other: string, season: nat, episode: nat, cache: ShowCache)
    requires ResolveTv(ctx, showName, season, episode, cache).0.Resolved?
    requires Fold(showName) == Fold(other)
    ensures var (first, cache1) := ResolveTv(ctx, showName, season, episode, cache);
      ResolveTv(ctx, other, season, episode, cache1) == (first, cache1)
  {
    CacheKeyIgnoresCase(showName, other);
  }

  /** On a cache miss the remote decides. The lookup succeeds exactly when the
      search has a first hit with an `id`, the episode fetch answers, and the hit
      and the episode carry `seriesName`, `firstAired` and `episodeName`; the
      record is built from those three fields. It raises exactly when the search
      fails, the first hit lacks `id`, or the fetch fails; an empty search, a
      not-found exception or a missing field gives `None`. */
  lemma TvMissAsksRemote(ctx: Context, showName: string, season: nat, episode: nat, cache: ShowCache)
    requires KeyPresent(ctx.tvdbKey) && CachedEpisode(cache, showName, season, episode).None?
    ensures var r := ResolveTv(ctx, showName, season, episode, cache).0;
      var key := ctx.tvdbKey.value;
      var search := ctx.searchShows(key, showName);
      if search.Answer? && |search.value| > 0 && "id" in search.value[0] then
        var hit := search.value[0];
        var fetch := ctx.fetchEpisode(key, hit["id"], season, episode);
        && (r.Resolved? <==>
              fetch.Answer? && "seriesName" in hit && "firstAired" in hit && "episodeName" in fetch.value)
        && (r.Resolved? ==> r.info == EpisodeInfo(hit["seriesName"], hit["firstAired"], fetch.value["episodeName"]))
        && (r.Raised? <==> fetch.Failed?)
      else
        && !r.Resolved?
        && (r.Raised? <==> search.Failed? || (search.Answer? && |search.value| > 0))
  {
  }

  /** The write does not merge: after a remote fetch for one episode, every other
      episode previously cached for the same show is gone. */
  lemma TvFetchForgetsOtherEpisodes(ctx: Context, showName: string, season: nat, episode: nat, cache: ShowCache,
                                    otherSeason: nat, otherEpisode: nat)
    requires CachedEpisode(cache, showName, season, episode).None?
    requires ResolveTv(ctx, showName, season, episode, cache).0.Resolved?
    requires (otherSeason, otherEpisode) != (season, episode)
    ensures CachedEpisode(ResolveTv(ctx, showName, season, episode, cache).1, showName, otherSeason, otherEpisode).None?
  {
    var c1 := ResolveTv(ctx, showName, season, episode, cache).1;
    var key := CacheKey(showName);
    assert c1[key].seasons == map[Decimal(season) := map[Decimal(episode) := ResolveTv(ctx, showName, season, episode, cache).0.info.episodeName]];
    if Decimal(otherSeason) == Decimal(season) && Decimal(otherEpisode) == Decimal(episode) {
      DecimalInjective(otherSeason, season);
      DecimalInjective(otherEpisode, episode);
    }
  }

  // ---------------------------------------------------------------------------
  // Movies

  /** The four fields read from a positive OMDb answer, in the order Python reads them. */
  function MovieRecordOf(data: JsonObject): Result<MovieRecord, string> {
    var title :- Field(data, "Title");
    var year :- Field(data, "Year");
    var director :- Field(data, "Director");
    var rating :- Field(data, "imdbRating");
    Success(MovieRecord(title, year, director, rating))
  }

  /** The remote half of `get_movie_info`. */
  function FetchMovie(ctx: Context, key: string, title: string): Resolution<MovieRecord> {
    match ctx.fetchMovie(key, title)
    case HttpFailed(msg) => Raised(msg)
    case HttpReply(ok, body) =>
      if !ok then Unresolved
      else
        match body
        case Failure(msg) => Raised(msg)
        case Success(data) =>
          match Field(data, "Response")
          case Failure(msg) => Raised(msg)
          case Success(flag) =>
            if flag != "True" then Unresolved
            else
              match MovieRecordOf(data)
              case Failure(msg) => Raised(msg)
              case Success(record) => Resolved(record)
  }

  /** The answer is positive: the request succeeded, the body decodes, `Response` is `'True'`. */
  predicate PositiveAnswer(reply: HttpOutcome) {
    && reply.HttpReply? && reply.ok && reply.body.Success?
    && "Response" in reply.body.value && reply.body.value["Response"] == "True"
  }

  /** `get_movie_info(api_key, movie_name)`, returning the outcome and the cache after the call. */
  function ResolveMovie(ctx: Context, title: string, cache: MovieCache): (r: (Resolution<MovieRecord>, MovieCache))
    ensures !KeyPresent(ctx.omdbKey) ==> r == (Raised(MissingOmdbKey), cache)
    // the cache is keyed by the title alone and answers without a remote call
    ensures KeyPresent(ctx.omdbKey) && CacheKey(title) in cache ==> r == (Resolved(cache[CacheKey(title)]), cache)
    ensures !r.0.Resolved? ==> r.1 == cache
    // the cache is written only after a positive answer, and then with exactly the answer's record
    ensures r.1 != cache ==>
      && KeyPresent(ctx.omdbKey)
      && PositiveAnswer(ctx.fetchMovie(ctx.omdbKey.value, title))
      && MovieRecordOf(ctx.fetchMovie(ctx.omdbKey.value, title).body.value) == Success(r.0.info)
      && r.1 == cache[CacheKey(title) := r.0.info]
    ensures r.0.Resolved? ==> CacheKey(title) in r.1 && r.1[CacheKey(title)] == r.0.info
  {
    if !KeyPresent(ctx.omdbKey) then (Raised(MissingOmdbKey), cache)
    else
      var key := CacheKey(title);
      if key in cache then (Resolved(cache[key]), cache)
      else
        var fetched := FetchMovie(ctx, ctx.omdbKey.value, title);
        if fetched.Resolved? then (fetched, cache[key := fetched.info]) else (fetched, cache)
  }

  /** A title that differs only in letter case finds the record cached for the first. */
  lemma MovieCaseVariantHitsCache(ctx: Context, title: string, other: string, cache: MovieCache)
    requires ResolveMovie(ctx, title, cache).0.Resolved?
    requires Fold(title) == Fold(other)
    ensures var (first, cache1) := ResolveMovie(ctx, title, cache);
      ResolveMovie(ctx, other, cache1) == (first, cache1)
  {
    CacheKeyIgnoresCase(title, other);
  }

  /** On a cache miss the lookup raises exactly when the request raises, an `ok`
      response does not decode, its `Response` field is missing, or a positive
      answer lacks one of the four fields; a response that is not `ok` or a
      `Response` other than `'True'` gives `None` instead. */
  lemma MovieMissRaises(ctx: Context, title: string, cache: MovieCache)
    requires KeyPresent(ctx.omdbKey) && CacheKey(title) !in cache
    ensures var reply := ctx.fetchMovie(ctx.omdbKey.value, title);
      ResolveMovie(ctx, title, cache).0.Raised? <==>
        || reply.HttpFailed?
        || (&& reply.ok
            && (|| reply.body.Failure?
                || "Response" !in reply.body.value
                || (reply.body.value["Response"] == "True" && MovieRecordOf(reply.body.value).Failure?)))
  {
  }

  /** On a cache miss the lookup succeeds exactly when the answer is positive and
      carries all four fields. */
  lemma MovieResolvedIffPositive(ctx: Context, title: string, cache: MovieCache)
    requires KeyPresent(ctx.omdbKey) && CacheKey(title) !in cache
    ensures var reply := ctx.fetchMovie(ctx.omdbKey.value, title);
      ResolveMovie(ctx, title, cache).0.Resolved? <==>
        PositiveAnswer(reply) && MovieRecordOf(reply.body.value).Success?
  {
  }
}

=== FILE: sanitizer.dfy ===
/** The name sanitizer: `re.sub(r'[\\/:"*?<>|]', '', name)` deletes every
    character that Windows forbids in a path segment and keeps the rest. */
module Sanitizer {

  /** The nine characters of the regex character class. */
  predicate IsIllegal(c: char) {
    c == '\\' || c == '/' || c == ':' || c == '"' || c == '*' || c == '?' || c == '<' || c == '>' || c == '|'
  }

  predicate IsClean(s: string) {
    forall i :: 0 <= i < |s| ==> !IsIllegal(s[i])
  }

  function Keep(c: char): string {
    if IsIllegal(c) then [] else [c]
  }

  /** The result has no forbidden character and holds every other character of
      `s` exactly as many times as `s` does. */
  function Sanitize(s: string): (r: string)
    ensures IsClean(r)
    ensures forall c :: !IsIllegal(c) ==> multiset(r)[c] == multiset(s)[c]
    ensures |r| <= |s|
  {
    if |s| == 0 then []
    else
      assert s == [s[0]] + s[1..];
      Keep(s[0]) + Sanitize(s[1..])
  }

  /** Sanitizing works character by character, so the kept characters stay in
      their original order: deleting from a concatenation is concatenating the
      deletions. */
  lemma {:induction false} SanitizeConcat(a: string, b: string)
    ensures Sanitize(a + b) == Sanitize(a) + Sanitize(b)
    decreases |a|
  {
    if |a| == 0 {
      assert a + b == b;
    } else {
      var ab := a + b;
      assert ab[0] == a[0] && ab[1..] == a[1..] + b;
      calc {
        Sanitize(ab);
        Keep(a[0]) + Sanitize(a[1..] + b);
        { SanitizeConcat(a[1..], b); }
        Keep(a[0]) + (Sanitize(a[1..]) + Sanitize(b));
        (Keep(a[0]) + Sanitize(a[1..])) + Sanitize(b);
      }
    }
  }

  /** A name is left unchanged exactly when it has no forbidden character. */
  lemma {:induction false} SanitizeFixedPoint(s: string)
    ensures Sanitize(s) == s <==> IsClean(s)
    decreases |s|
  {
    if |s| > 0 && IsClean(s) {
      assert IsClean(s[1..]) by {
        forall i | 0 <= i < |s[1..]| ensures !IsIllegal(s[1..][i]) {
          assert s[1..][i] == s[i + 1];
        }
      }
      SanitizeFixedPoint(s[1..]);
    }
  }

  /** Sanitizing twice is sanitizing once. */
  lemma SanitizeIdempotent(s: string)
    ensures Sanitize(Sanitize(s)) == Sanitize(s)
  {
    SanitizeFixedPoint(Sanitize(s));
  }
}

=== FILE: scanner.dfy ===
/** The directory scanner `list_directories` and the report writer
    `save_tv_show_directories_to_file`.

    The scanner classifies each immediate subdirectory name of the root, in
    enumeration order, trying the TV pattern first. Everything one directory does
    runs inside its own exception boundary: an exception becomes one line of the
    error log and the scan goes on with the next name. */
module Scanner {
  import opened Wrappers
  import opened Patterns
  import opened Resolver
  import opened Naming
  import opened Library
  import opened Text

  datatype Kind = TvShow | Movie

  /** One worklist tuple `(dir_type, formatted_name, source_directory)`. */
  datatype Entry = Entry(kind: Kind, name: string, source: Path)

  /** Both on-disk caches. */
  datatype Caches = Caches(shows: ShowCache, movies: MovieCache)

  /** `str()` of an optional regex group: a group that did not take part prints as `None`. */
  function GroupText(g: Option<string>): string {
    if g.Some? then g.value else "None"
  }

  /** The display name the scanner records for a TV directory, as the code builds
      it: `process_tv_show_match` returns a 4-tuple, which is always truthy, and
      the tuple itself is formatted, followed by `S{g2}E{g3}` where `g2, g3` are
      the second and third groups of the match, i.e. the year and the season.
      `tupleText` is Python's `str()` of the tuple, left abstract. */
  function TvDisplayName(tupleText: Option<TvResolved> -> string, t: Option<TvResolved>, m: TvMatch): string {
    tupleText(t) + " S" + GroupText(m.year) + "E" + m.season
  }

  const ErrorPrefix := "Error processing directory "

  /** The error-log line for an exception raised while handling `dirName`. */
  function ErrorLine(dirName: string, message: string): string {
    ErrorPrefix + dirName + ": " + message
  }

  /** What one directory contributes: at most one entry, at most one error line,
      and the caches afterwards. */
  datatype Step = Step(entry: Option<Entry>, error: Option<string>, caches: Caches)

  function AsSeq<T>(o: Option<T>): seq<T> {
    if o.Some? then [o.value] else []
  }

  /** One iteration of the loop in `list_directories`, including its `try`/`except`. */
  function ScanDirectory(ctx: Context, tupleText: Option<TvResolved> -> string, root: Path, dirName: string, caches: Caches): (r: Step)
    // a directory yields an entry or an error line, never both
    ensures r.entry.Some? ==> r.error.None? && EntryFrom(root, dirName, r.entry.value)
    // an entry is only made for a name its kind's pattern matches, TV winning over movie
    ensures r.entry.Some? && r.entry.value.kind == Movie ==> MatchTv(dirName).None?
    // a TV-shaped name is recorded whenever nothing raised, even if the lookup found nothing
    ensures MatchTv(dirName).Some? ==> (r.entry.Some? <==> r.error.None?)
    // a name matching neither pattern is skipped silently
    ensures MatchTv(dirName).None? && MatchMovie(dirName).None? ==> r == Step(None, None, caches)
    // an exception leaves exactly one log line naming the directory, and no cache write
    ensures r.error.Some? ==> exists msg :: r.error.value == ErrorLine(dirName, msg)
    ensures r.error.Some? ==> r.caches == caches
    // an error line is written exactly when the lookup raised; the caches are what the lookup left
    ensures MatchTv(dirName).Some? ==>
      var p := ProcessTvMatch(ctx, MatchTv(dirName).value, caches.shows);
      (r.error.Some? <==> p.0.Failure?) && r.caches == caches.(shows := p.1)
    ensures MatchTv(dirName).None? && MatchMovie(dirName).Some? ==>
      var p := ProcessMovieMatch(ctx, MatchMovie(dirName).value, caches.movies);
      (r.error.Some? <==> p.0.Failure?) && r.caches == caches.(movies := p.1)
    // without a TVDB key only movies are recorded
    ensures !KeyPresent(ctx.tvdbKey) && r.entry.Some? ==> r.entry.value.kind == Movie
    // a TV entry is named by the tuple's text, then ` S{year}E{season}` from the first three groups
    ensures MatchTv(dirName).Some? && r.entry.Some? ==>
      var m := MatchTv(dirName).value;
      var o := ProcessTvMatch(ctx, m, caches.shows).0;
      o.Success? && r.entry.value.name == TvDisplayName(tupleText, o.value, m)
    // a movie is recorded exactly when its lookup gave a name, and under that name
    ensures MatchTv(dirName).None? && MatchMovie(dirName).Some? ==>
      var o := ProcessMovieMatch(ctx, MatchMovie(dirName).value, caches.movies).0;
      && (r.entry.Some? <==> o.Success? && o.value.Some?)
      && (r.entry.Some? ==> r.entry.value == Entry(Movie, o.value.value, Join(root, dirName)))
  {
    var tv := MatchTv(dirName);
    if tv.Some? then ScanTv(ctx, tupleText, root, dirName, tv.value, caches)
    else
      var movie := MatchMovie(dirName);
      if movie.Some? then ScanMovie(ctx, root, dirName, movie.value, caches)
      else Step(None, None, caches)
  }

  /** The TV branch of the loop body, for the match `m` of `dirName`. */
  function ScanTv(ctx: Context, tupleText: Option<TvResolved> -> string, root: Path, dirName: string, m: TvMatch, caches: Caches): (r: Step)
    requires AllDigits(m.season) && AllDigits(m.episode)
    ensures r.entry.Some? <==> r.error.None?
    ensures !KeyPresent(ctx.tvdbKey) ==> r.entry.None?
    ensures r.entry.Some? <==> ProcessTvMatch(ctx, m, caches.shows).0.Success?
    ensures r.entry.Some? ==>
      r.entry.value == Entry(TvShow, TvDisplayName(tupleText, ProcessTvMatch(ctx, m, caches.shows).0.value, m), Join(root, dirName))
    ensures r.error.Some? ==> exists msg :: r.error.value == ErrorLine(dirName, msg)
    ensures r.error.Some? ==> r.caches == caches
    // the lookup's cache write is passed on to the next directory
    ensures r.caches == caches.(shows := ProcessTvMatch(ctx, m, caches.shows).1)
  {
    var (outcome, shows) := ProcessTvMatch(ctx, m, caches.shows);
    match outcome
    case Failure(msg) => Step(None, Some(ErrorLine(dirName, msg)), caches.(shows := shows))
    case Success(t) =>
      Step(Some(Entry(TvShow, TvDisplayName(tupleText, t, m), Join(root, dirName))), None, caches.(shows := shows))
  }

  /** The movie branch of the loop body, for the match `m` of `dirName`. */
  function ScanMovie(ctx: Context, root: Path, dirName: string, m: MovieMatch, caches: Caches): (r: Step)
    ensures r.entry.Some? ==> r.error.None?
    ensures var o := ProcessMovieMatch(ctx, m, caches.movies).0;
      && (r.entry.Some? <==> o.Success? && o.value.Some?)
      && (r.entry.Some? ==> r.entry.value == Entry(Movie, o.value.value, Join(root, dirName)))
      && (r.error.Some? <==> o.Failure?)
    ensures r.error.Some? ==> exists msg :: r.error.value == ErrorLine(dirName, msg)
    ensures r.error.Some? ==> r.caches == caches
    ensures r.caches == caches.(movies := ProcessMovieMatch(ctx, m, caches.movies).1)
  {
    var (outcome, movies) := ProcessMovieMatch(ctx, m, caches.movies);
    match outcome
    case Failure(msg) => Step(None, Some(ErrorLine(dirName, msg)), caches.(movies := movies))
    case Success(None) => Step(None, None, caches.(movies := movies))
    case Success(Some(name)) => Step(Some(Entry(Movie, name, Join(root, dirName))), None, caches.(movies := movies))
  }

  /** The result of `list_directories`: the worklist, the lines appended to
      `error_log.txt`, and the caches afterwards. */
  datatype ScanResult = ScanResult(entries: seq<Entry>, errors: seq<string>, caches: Caches)

  /** The entry was made for the child `dirName` of the root, and its base name
      matches its kind's pattern again when the main loop re-matches it. */
  predicate EntryFrom(root: Path, dirName: string, e: Entry) {
    && e.source == Join(root, dirName)
    && (e.kind == TvShow ==> MatchTv(dirName).Some?)
    && (e.kind == Movie ==> MatchMovie(dirName).Some?)
  }

  /** Every worklist entry was made for one of the scanned names. */
  ghost predicate WorklistSound(root: Path, dirs: seq<string>, entries: seq<Entry>) {
    forall i :: 0 <= i < |entries| ==> Basename(entries[i].source) in dirs && EntryFrom(root, Basename(entries[i].source), entries[i])
  }

  /** `list_directories(root_dir, tvdb_api_key, omdb_api_key)` over the names `dirs`
      that `os.walk` lists, threading the caches from one directory to the next. */
  function ListDirectories(ctx: Context, tupleText: Option<TvResolved> -> string, root: Path, dirs: seq<string>, caches: Caches): (r: ScanResult)
    ensures |r.entries| + |r.errors| <= |dirs|
    ensures WorklistSound(root, dirs, r.entries)
    decreases |dirs|
  {
    if |dirs| == 0 then ScanResult([], [], caches)
    else
      var step := ScanDirectory(ctx, tupleText, root, dirs[0], caches);
      var rest := ListDirectories(ctx, tupleText, root, dirs[1..], step.caches);
      WorklistCons(root, dirs, step.entry, rest.entries);
      ScanResult(AsSeq(step.entry) + rest.entries, AsSeq(step.error) + rest.errors, rest.caches)
  }

  /** The loop handles the first name and then the rest, from the caches the first
      left behind: the first directory's entry or error line comes first, and
      whatever it did, the remaining directories are still scanned. */
  lemma ListDirectoriesCons(ctx: Context, tupleText: Option<TvResolved> -> string, root: Path, d: string,
                            rest: seq<string>, caches: Caches)
    ensures var s := ScanDirectory(ctx, tupleText, root, d, caches);
      var r := ListDirectories(ctx, tupleText, root, rest, s.caches);
      ListDirectories(ctx, tupleText, root, [d] + rest, caches)
        == ScanResult(AsSeq(s.entry) + r.entries, AsSeq(s.error) + r.errors, r.caches)
  {
    assert ([d] + rest)[0] == d && ([d] + rest)[1..] == rest;
  }

  lemma WorklistCons(root: Path, dirs: seq<string>, e: Option<Entry>, rest: seq<Entry>)
    requires |dirs| > 0 && (e.Some? ==> EntryFrom(root, dirs[0], e.value))
    requires WorklistSound(root, dirs[1..], rest)
    ensures WorklistSound(root, dirs, AsSeq(e) + rest)
  {
    var all := AsSeq(e) + rest;
    forall i | 0 <= i < |all|
      ensures Basename(all[i].source) in dirs && EntryFrom(root, Basename(all[i].source), all[i])
    {
      WorklistElem(root, dirs, e, rest, i);
    }
  }

  lemma WorklistElem(root: Path, dirs: seq<string>, e: Option<Entry>, rest: seq<Entry>, i: int)
    requires |dirs| > 0 && (e.Some? ==> EntryFrom(root, dirs[0], e.value))
    requires WorklistSound(root, dirs[1..], rest)
    requires 0 <= i < |AsSeq(e) + rest|
    ensures var x := (AsSeq(e) + rest)[i]; Basename(x.source) in dirs && EntryFrom(root, Basename(x.source), x)
  {
    var x := (AsSeq(e) + rest)[i];
    if e.Some? && i == 0 {
      assert x == e.value;
      assert Basename(x.source) == dirs[0];
    } else {
      var j := if e.Some? then i - 1 else i;
      assert x == rest[j];
      WorklistAt(root, dirs, rest, j);
    }
  }

  lemma WorklistAt(root: Path, dirs: seq<string>, rest: seq<Entry>, j: int)
    requires |dirs| > 0 && WorklistSound(root, dirs[1..], rest) && 0 <= j < |rest|
    ensures Basename(rest[j].source) in dirs && EntryFrom(root, Basename(rest[j].source), rest[j])
  {
    assert Basename(rest[j].source) in dirs[1..];
  }

  /** Scanning a concatenation is scanning the first part and then the second part
      from the caches the first left behind: entries and error lines keep the
      enumeration order, and a directory that raises does not stop the ones after it. */
  lemma {:induction false} ListDirectoriesConcat(ctx: Context, tupleText: Option<TvResolved> -> string, root: Path,
                                                 a: seq<string>, b: seq<string>, caches: Caches)
    ensures var ra := ListDirectories(ctx, tupleText, root, a, caches);
      var rb := ListDirectories(ctx, tupleText, root, b, ra.caches);
      ListDirectories(ctx, tupleText, root, a + b, caches) == ScanResult(ra.entries + rb.entries, ra.errors + rb.errors, rb.caches)
    decreases |a|
  {
    if |a| == 0 {
      assert a + b == b;
    } else {
      var ab := a + b;
      assert ab[0] == a[0] && ab[1..] == a[1..] + b;
      var step := ScanDirectory(ctx, tupleText, root, a[0], caches);
      var ra' := ListDirectories(ctx, tupleText, root, a[1..], step.caches);
      var ra := ListDirectories(ctx, tupleText, root, a, caches);
      assert ra == ScanResult(AsSeq(step.entry) + ra'.entries, AsSeq(step.error) + ra'.errors, ra'.caches);
      var rb := ListDirectories(ctx, tupleText, root, b, ra.caches);
      ListDirectoriesConcat(ctx, tupleText, root, a[1..], b, step.caches);
      var rest := ListDirectories(ctx, tupleText, root, ab[1..], step.caches);
      assert rest == ScanResult(ra'.entries + rb.entries, ra'.errors + rb.errors, rb.caches);
      ConcatAssoc(AsSeq(step.entry), ra'.entries, rb.entries);
      ConcatAssoc(AsSeq(step.error), ra'.errors, rb.errors);
    }
  }

  lemma ConcatAssoc<T>(x: seq<T>, y: seq<T>, z: seq<T>)
    ensures x + (y + z) == (x + y) + z
  {
  }

  /** Without a TVDB key every TV-shaped directory raises, so the worklist holds movies only. */
  lemma {:induction false} NoTvdbKeyNoTvEntries(ctx: Context, tupleText: Option<TvResolved> -> string, root: Path,
                                                dirs: seq<string>, caches: Caches)
    requires !KeyPresent(ctx.tvdbKey)
    ensures forall e :: e in ListDirectories(ctx, tupleText, root, dirs, caches).entries ==> e.kind == Movie
    decreases |dirs|
  {
    if |dirs| > 0 {
      var step := ScanDirectory(ctx, tupleText, root, dirs[0], caches);
      NoTvdbKeyNoTvEntries(ctx, tupleText, root, dirs[1..], step.caches);
    }
  }

  // ---------------------------------------------------------------------------
  // Report

  const ReportHeader := "New Name,Old Name\n"

  function ReportRow(e: Entry): string {
    e.name + "," + Basename(e.source) + "\n"
  }

  /** The rows of the report: one per TV entry, in worklist order; movies are skipped. */
  function ReportRows(entries: seq<Entry>): string
    decreases |entries|
  {
    if |entries| == 0 then ""
    else (if entries[0].kind == TvShow then ReportRow(entries[0]) else "") + ReportRows(entries[1..])
  }

  /** `save_tv_show_directories_to_file`: the text written to the report file. */
  function ReportText(entries: seq<Entry>): (text: string)
    ensures |text| >= |ReportHeader| && text[..|ReportHeader|] == ReportHeader
    ensures (forall i :: 0 <= i < |entries| ==> entries[i].kind == Movie) ==> text == ReportHeader
  {
    MovieRowsEmpty(entries);
    ReportHeader + ReportRows(entries)
  }

  /** The writing loop, one entry at a time: each further TV entry appends the
      line `{formatted_name},{basename(source_directory)}`, each movie appends nothing. */
  lemma ReportAppend(entries: seq<Entry>, e: Entry)
    ensures ReportText(entries + [e])
      == ReportText(entries) + (if e.kind == TvShow then e.name + "," + Basename(e.source) + "\n" else "")
  {
    ReportRowsConcat(entries, [e]);
    assert [e][1..] == [];
  }

  lemma {:induction false} MovieRowsEmpty(entries: seq<Entry>)
    ensures (forall i :: 0 <= i < |entries| ==> entries[i].kind == Movie) ==> ReportRows(entries) == ""
    decreases |entries|
  {
    if |entries| > 0 {
      MovieRowsEmpty(entries[1..]);
    }
  }

  /** The rows of a concatenated worklist are the rows of each part in turn. */
  lemma {:induction false} ReportRowsConcat(a: seq<Entry>, b: seq<Entry>)
    ensures ReportRows(a + b) == ReportRows(a) + ReportRows(b)
    decreases |a|
  {
    if |a| == 0 {
      assert a + b == b;
    } else {
      assert (a + b)[0] == a[0] && (a + b)[1..] == a[1..] + b;
      ReportRowsConcat(a[1..], b);
    }
  }
}

=== FILE: text.dfy ===
/** Character and number formatting helpers shared by the model: ASCII digits,
    Python's `int()` on a digit string, `str()` and `format(n, '02d')` on a
    non-negative integer, and `str.replace('.', ' ')`. */
module Text {

  predicate IsDigit(c: char) {
    '0' <= c <= '9'
  }

  predicate AllDigits(s: string) {
    forall i :: 0 <= i < |s| ==> IsDigit(s[i])
  }

  function DigitValue(c: char): nat
    requires IsDigit(c)
  {
    c as int - '0' as int
  }

  function DigitChar(d: nat): (c: char)
    requires d < 10
    ensures IsDigit(c) && DigitValue(c) == d
  {
    ('0' as int + d) as char
  }

  /** Python's `int(s)` for a non-empty string of ASCII digits. */
  function DigitsValue(s: string): nat
    requires AllDigits(s)
  {
    if |s| == 0 then 0 else DigitsValue(s[..|s| - 1]) * 10 + DigitValue(s[|s| - 1])
  }

  /** Python's `str(n)`: the shortest decimal representation, with no leading zero
      unless `n` is zero. */
  function Decimal(n: nat): (r: string)
    ensures |r| >= 1 && AllDigits(r)
    ensures n < 10 <==> |r| == 1
    ensures r[0] == '0' ==> n == 0
    decreases n
  {
    if n < 10 then [DigitChar(n)] else Decimal(n / 10) + [DigitChar(n % 10)]
  }

  /** Reading back what `str(n)` wrote gives `n`: `int(str(n)) == n`. */
  lemma {:induction false} DecimalRoundTrip(n: nat)
    ensures DigitsValue(Decimal(n)) == n
    decreases n
  {
    if n >= 10 {
      var d := Decimal(n);
      assert d[..|d| - 1] == Decimal(n / 10);
      DecimalRoundTrip(n / 10);
    }
  }

  /** Distinct numbers have distinct `str()` forms, so `str(season)` keys never collide. */
  lemma DecimalInjective(a: nat, b: nat)
    requires Decimal(a) == Decimal(b)
    ensures a == b
  {
    DecimalRoundTrip(a);
    DecimalRoundTrip(b);
  }

  /** Python's `f'{n:02d}'` for a non-negative `n`: `str(n)` left-padded with zeros
      to width two, so at least two digits, and no padding beyond that width. */
  function Pad2(n: nat): (r: string)
    ensures |r| >= 2 && AllDigits(r)
    ensures DigitsValue(r) == n
    ensures n < 10 ==> r == "0" + Decimal(n)
    ensures n >= 10 ==> r == Decimal(n)
  {
    DecimalRoundTrip(n);
    if n < 10 then
      var r := ['0', DigitChar(n)];
      assert r[..1] == ['0'];
      r
    else Decimal(n)
  }

  /** `f'{int(t):02d}'` gives back the two-digit text `t` it was parsed from. */
  lemma Pad2OfTwoDigits(t: string)
    requires |t| == 2 && AllDigits(t)
    ensures Pad2(DigitsValue(t)) == t
  {
    var hi, lo := DigitValue(t[0]), DigitValue(t[1]);
    assert t[..1] == [t[0]] && [t[0]][..0] == [];
    assert DigitsValue(t[..1]) == hi;
    var v := DigitsValue(t);
    assert v == hi * 10 + lo;
    assert DigitChar(hi) == t[0] && DigitChar(lo) == t[1];
    if v >= 10 {
      assert v / 10 == hi && v % 10 == lo;
      assert Decimal(v) == [t[0]] + [t[1]];
    }
  }

  /** Python's `s.replace('.', ' ')`. */
  function DotsToSpaces(s: string): (r: string)
    ensures |r| == |s|
    ensures forall i :: 0 <= i < |s| && s[i] == '.' ==> r[i] == ' '
    ensures forall i :: 0 <= i < |s| && s[i] != '.' ==> r[i] == s[i]
    ensures forall i :: 0 <= i < |s| ==> r[i] != '.'
  {
    seq(|s|, i requires 0 <= i < |s| => if s[i] == '.' then ' ' else s[i])
  }

  /** Python's `s.endswith(suffix)`, case-sensitive. */
  predicate EndsWith(s: string, suffix: string) {
    |suffix| <= |s| && s[|s| - |suffix|..] == suffix
  }
}

=== FILE: wrappers.dfy ===
/** Failure-compatible wrappers used throughout the model: `Option` for Python's
    `None`-or-value returns and `Result` for "returns a value or raises". */
module Wrappers {

  datatype Option<+T> = None | Some(value: T)

  /** `Success(v)` models a Python call that returned `v`; `Failure(msg)` one that
      raised an exception whose `str()` is `msg`. */
  datatype Result<+R, +E> = Success(value: R) | Failure(error: E) {

    predicate IsFailure() {
      Failure?
    }

    function PropagateFailure<U>(): Result<U, E>
      requires Failure?
    {
      Failure(error)
    }

    function Extract(): R
      requires Success?
    {
      value
    }
  }
}
